=== FILE: README.md ===
# webserver dispatch core, in Dafny

A model of the request-dispatch core of the Go web framework
`4thPlanet/webserver`, with proofs about it. The modelled code is:

- the `Verb` enumeration and its parser;
- the `Server`, with its session store, server-level middlewares and registry
  of content-type capabilities;
- `ApplyRoute` and the closure it registers for a path. The closure's stages
  are session load, verb check (501), handler lookup (405), Accept
  negotiation (406), inline body decoding, server then route middlewares
  (418), handler (400), delivery in the negotiated form, Accept-Encoding
  choice, session save and write;
- the `Request` helpers and `readBody`;
- the session stores and the `Session` that loads, saves and deletes through
  them;
- the `Route` setters;
- the form and multipart parsers of `RequestBody`;
- the error handler of `errors.go`.

Each Go file becomes one module:

| Go file | module | form |
|---|---|---|
| verbs.go | `Verbs` | functions |
| server.go | `Server` | class `Server` for setup; class `Endpoint` for the closure and its loops; the function `Respond` is what the closure computes, and `RespondOutcomes` states its guarantees |
| server.go | `Negotiation` | the Accept and Accept-Encoding loops as pure functions, plus the as-written Accept loop |
| request.go | `Request` | class `Request`; the function `DecodeBody` specifies `ReadBody`, and `DecodeBodyOutcomes` states its cases |
| session.go | `Sessions` | classes `InMemorySessionStore` and `Session`; a `SessionStore` datatype for in-memory, sessionless and application stores |
| route.go | `Routes` | class `Route` |
| parsers.go | `Parsers` | class `RequestBody` |
| errors.go | `Errors`, `ErrorHandlers` | the `Error` value, class `ErrorHandler`, `Apply`, specified by the function `ErrorDelivery` |

`Http` holds the parts of `net/http`, `strings` and `encoding/base64` that
the core relies on:

- header maps with canonical keys;
- `Set`, `Add` and `Get`;
- the `set-cookie` text of a cookie;
- `Split`, `TrimSpace` and ASCII `ToUpper`;
- standard base64.

`Capabilities` replaces reflection with data:

- an interface is its list of method signatures;
- a response type is its method set;
- a response value is what its `[]byte` methods return, plus what reading
  it as a stream yields.

Go values held as `interface{}` (the body, the session data, a handler's
result) are `Capabilities.Value`s.

Nondeterminism and library calls become parameters:

- the 12 bytes from `crypto/rand`;
- `mime.ParseMediaType`;
- `url.ParseQuery`;
- `multipart.Reader.ReadForm`;
- `FileHeader.Open`;
- `json.Unmarshal`, and the optional body parsers;
- the compressing writer used by `errors.go`;
- the handlers and middlewares. These are functions from what they see of
  the request to their result and the session data they leave in it.

The order in which a Go map is ranged over is left open with `:|`.

The model follows the code. In a few places the code is narrower than the
framework's stated design:

- Accept weights (`;q=`) are not parsed. Everything after the first `;` of
  the header is dropped (`Negotiation.ParametersIgnored`).
- `text/*` never reaches a capability registered under `"html"`
  (`NegotiationExamples.WildcardDoesNotReachHtml`).
- A middleware error is answered with 418 and a handler error with 400, both
  with only a status line. Neither goes through the error handler.
- The inline decoder answers every parser rejection with 400, including the
  413 that the multipart parser reports for an oversized form.
- The plain-text decoders compare the media type with the bare word `text`.

## Model

| member | source | states |
|---|---|---|
| Verbs.ParseVerbMatchesNames | verbs.go:22-46 | ParseVerb succeeds exactly when the ASCII upper-cased input is one of the nine method names. On success the verb is in 1..9 and is named by the upper-cased input. On failure the verb is 0 and there is an error. |
| Verbs.LookupMatchesNames | verbs.go:23-44 | The switch on upper-cased text recognises exactly the nine names and maps each to its constant; anything else is 0 with an error. |
| Verbs.VerbString | verbs.go:48-72 | For a verb in 1..9, its method name is the entry of the name table at that position. Outside 1..9 the source panics, so that range is the precondition. |
| Verbs.NameIsUpper | verbs.go:48-72 | Every method name is unchanged by upper-casing. |
| Verbs.NameLooksUp | verbs.go:23-44 | The switch maps each method name to its own verb, without error. |
| Verbs.NameRoundTrip | verbs.go:22-72 | Parsing a verb's name gives back that verb without error. |
| Verbs.TextRoundTrip | verbs.go:22-72 | Naming the verb parsed from accepted text gives back the upper-cased text. |
| Verbs.ParseIgnoresCase | verbs.go:23 | Text and its upper-cased form parse to the same result. |
| Verbs.LowerCaseGet | verbs.go:23-25 | "get" parses as GET. |
| Http.ToUpper | verbs.go:23 | Same length; each character is raised when it is a lower-case ASCII letter and kept otherwise. |
| Http.ToUpperFixed | verbs.go:23 | Text without lower-case ASCII letters is unchanged by upper-casing. |
| Http.ToUpperIdempotent | verbs.go:23 | Upper-casing twice equals upper-casing once. |
| Http.Split | server.go:177 | A split has at least one piece. |
| Http.SplitJoin | server.go:177 | Joining the pieces of a split with the separator gives back the input. |
| Http.SplitPiecesLackSeparator | server.go:177 | No piece of a split contains the separator. |
| Http.TrimLeft | server.go:347 | The result is a suffix of the input that does not start with white space, and everything cut is white space. |
| Http.TrimRight | server.go:347 | The result is a prefix of the input that does not end with white space, and everything cut is white space. |
| Http.TrimSpace | server.go:347 | The result neither starts nor ends with white space. Input that neither starts nor ends with white space is unchanged. |
| Http.TrimSpaceStrips | server.go:347 | The result is a slice of the input; everything cut before and after it is white space. |
| Http.CanonicalKey | request.go:38 | A canonical key has the length of the key it is made from. |
| Http.CanonicalKeyLetters | request.go:38 | In a canonical key the first character and every character after '-' are upper-cased, every other one lower-cased (ASCII letters only). |
| Http.CanonicalKeyIdempotent | request.go:38 | A canonical key is its own canonical form. |
| Http.GetAfterSet | server.go:176 | Get after Set reads back the value set; a field with another canonical name reads as before. |
| Http.GetAfterAdd | server.go:349 | Get after Add reads the added value when the field had none, and its first value otherwise; a field with another canonical name reads as before. |
| Http.SetField | request.go:38 | The field then has exactly the one value given, and every field with another canonical name is unchanged. |
| Http.AddField | server.go:349 | The value is appended to the field's values, and every field with another canonical name is unchanged. |
| Http.HeaderMap.Set | request.go:38 | The shared header map becomes the old one with the field set to the one value. |
| Http.HeaderMap.Add | server.go:349 | The shared header map becomes the old one with the value appended to the field. |
| Http.Base64Encode | session.go:47 | The encoding has four characters per started group of three bytes. |
| Http.Base64Alphabet | session.go:47 | Input whose length is a multiple of three encodes to base64 alphabet characters only. |
| Negotiation.FirstMatchFirst | server.go:180-208 | Entries are tried left to right. The first entry that has a match decides, whatever follows it. |
| Negotiation.FirstMatchNone | server.go:180-213 | When no entry has a match, nothing is chosen. |
| Negotiation.FirstMatchSingle | server.go:180-208 | A one-entry list is decided by that entry. |
| Negotiation.ChosenIsSatisfied | server.go:182-201 | A chosen capability is registered under a token for which the route's implements map is true. |
| Negotiation.SplitWithoutSeparator | server.go:189 | Splitting text without the separator gives the text as the only piece. |
| Negotiation.SplitAtFirst | server.go:177 | Splitting at a first separator gives the text before it, then the split of the rest. |
| Negotiation.SplitInTwo | server.go:189 | Text with one separator splits into the two pieces around it. |
| Negotiation.ParametersIgnored | server.go:177 | Anything after the first ';' of the Accept header, weights included, does not change the choice. |
| Negotiation.EmptyAcceptPanicsAsWritten | server.go:189-190 | As written, an absent Accept header panics when the empty token is not a satisfied registration. |
| Negotiation.DontPanicPanicsAsWritten | server.go:189-190 | As written, the Accept header "DONTPANIC" panics unless that text is itself a satisfied token. |
| Negotiation.SlashlessPanicsAsWritten | server.go:177-190 | As written, a one-entry Accept header without '/' panics unless the entry is itself a satisfied token. |
| Negotiation.SlashlessNotAcceptable | server.go:180-213 | The total negotiation answers such a header with no capability. |
| Negotiation.EmptyAcceptNotAcceptable | server_test.go:30 | The total negotiation answers an absent Accept header with no capability. |
| Negotiation.DontPanicNotAcceptable | server_test.go:35 | The total negotiation answers "DONTPANIC" with no capability. |
| Negotiation.TotalAgreesWithWritten | server.go:180-208 | Wherever the loop as written does not panic, the total negotiation makes the same choice. |
| Negotiation.Recognise | server.go:347-367 | A token is recognised exactly when it is the Content-Encoding name of gzip, deflate or br, and then it names that encoding. |
| Negotiation.EntryEncoding | server.go:347 | An Accept-Encoding entry names a compressor exactly when its trimmed text is that compressor's token. |
| Negotiation.ChooseFromFirst | server.go:344-372 | The first entry naming a compressor decides, whatever follows it. |
| Negotiation.ChooseFromNone | server.go:344-372 | When no entry names a compressor, none is chosen. |
| Negotiation.SingleEntry | server.go:177 | An Accept header without ';' or ',' is one entry. |
| Negotiation.SingleEntryDecides | server.go:177-208 | An Accept header without ';' or ',' is decided by its single entry. |
| Negotiation.TypeSubtypeOrder | server.go:182-202 | For an entry "type/subtype", the order is the exact entry, then the subtype, then the type when the subtype is "*". |
| NegotiationExamples.GzipBeforeBrotli | server.go:344-353 | "gzip, br" chooses gzip. |
| NegotiationExamples.IdentityDoesNotStopTheScan | server.go:366-367 | In "identity, br", identity ends only the switch, so br is chosen. |
| NegotiationExamples.IdentityThenBrotli | server.go:346-372 | For the entries "identity" and " br", br is chosen. |
| NegotiationExamples.BrotliEntry | server.go:360 | The entry " br", with its leading blank, names br. |
| NegotiationExamples.TypeThenSubtype | server.go:177-204 | For the headers "text/html", "text/*" and "application/json", the exact entry is tried, then its subtype, then its type when the subtype is "*". |
| NegotiationExamples.ExactTokenMatches | server_test.go:31 | "text/xml" with a satisfied "text/xml" registration chooses that capability. |
| NegotiationExamples.UnsatisfiedSubtypeIsNotAcceptable | server_test.go:32 | "text/html" when only "text/csv" is satisfied chooses nothing. |
| NegotiationExamples.SubtypeMatches | server_test.go:33 | "text/html" when "html" is satisfied chooses the HTML capability through the subtype. |
| NegotiationExamples.WildcardSubtypeFallsBackToType | server_test.go:34 | "text/*" when "text" is satisfied chooses the capability registered under "text". |
| NegotiationExamples.WildcardDoesNotReachHtml | server.go:196-202 | With the registry New leaves, "text/*" chooses nothing for a route that satisfies only "html". |
| NegotiationExamples.JsonAcceptedByJsonRoute | server.go:180-204 | "application/json" for a route that satisfies JSON and CSV chooses the JSON capability. |
| Request.DecodeBodyOutcomes | request.go:54-123 | An empty body is no body and no error, and nothing is set. Otherwise: an unparsable Content-Type fails before anything is read or set; a media type without a case fails with an unsupported error and nothing set; bodySize is set exactly when a whole-body case read the body; JSON is always unmarshalled, and its failure leaves Body unassigned; a body type without the parser decodes to the zero body; a Rejected error comes only from a parser of a decodable type other than JSON. |
| Request.DecodeBodyParsers | request.go:62-120 | A whole-body case whose read fails returns the read error and sets nothing. With the form or plain-text parser, Body becomes the parser's value, or the parser's error is returned, and bodySize is set. With the multipart parser, the same without bodySize. |
| Request.Request.constructor | server.go:141-147 | A request starts with its path, headers, cookies and shared response header map, and no verb, body, session or sizes. |
| Request.Request.ReadBody | request.go:54-123 | The returned error, the body size BodySize reports (request.go:41-43) and Body are those that DecodeBody describes; Body and the body size otherwise keep their values. |
| Request.Request.ReadMedia | request.go:62-120 | The switch on a parsed media type sets the error, bodySize and Body that DecodeMedia, the matching part of DecodeBody, describes. |
| Request.Request.SetCookie | request.go:37-39 | The response's set-cookie field becomes that one cookie's text, replacing earlier ones. No other field changes. |
| Parsers.FormErrorCode | parsers.go:47-52 | A byte-limit failure of ReadForm is 413; any other failure is 400. |
| Parsers.RequestBody.ParseFormData | parsers.go:28-41 | A read failure is 500 and a query that does not parse is 400; both leave Values as they were. Success sets Values to the parsed query and returns no error. |
| Parsers.RequestBody.OpenParts | parsers.go:57-66 | Files gains exactly the key, with one entry per part; other keys keep theirs. No failure exactly when every part opens, and then each entry is that part's opened file, in order. |
| Parsers.RequestBody.ParseMultipartFormData | parsers.go:43-69 | A ReadForm failure is classified by FormErrorCode and changes nothing. On success Values is the form's values, and there is no error exactly when every file part opens; a failed open is 500. On no error, Files has exactly the form's file keys, each with one opened file per part, in the parts' order. |
| Routes.Route.constructor | server.go:126-130 | A route holds its path and handlers, with no middlewares and no websocket or event-stream handler. |
| Routes.Route.Middleware | route.go:11-13 | Appends the middleware: one longer, with the earlier ones unchanged and in order. Nothing else changes. |
| Routes.Route.Websocket | route.go:15-17 | Sets only the websocket handler, to the one given or to none for nil; the last call wins. |
| Routes.Route.EventStream | route.go:21-23 | Sets only the event-stream handler, to the one given or to none for nil; the last call wins. |
| Sessions.CookieNamed | session.go:43 | Absent exactly when no cookie has the name. Otherwise it is the first cookie with that name. |
| Sessions.InMemoryToken | session.go:39-51 | The session_token cookie's value when present. Otherwise the 16-character base64 text of the random bytes. |
| Sessions.InMemorySessionStore.constructor | session.go:32-37 | A new store holds no sessions. |
| Sessions.InMemorySessionStore.ParseToken | session.go:39-51 | Returns InMemoryToken of the cookies and random bytes. |
| Sessions.InMemorySessionStore.Get | session.go:52-56 | The stored data, or the zero value for an unknown token; never an error. |
| Sessions.InMemorySessionStore.Save | session.go:57-62 | Panics exactly on nil data, and then stores nothing. Otherwise only that token's entry changes, to the data. |
| Sessions.InMemorySessionStore.Delete | session.go:63-68 | Removes only that token's entry. |
| Sessions.SaveThenGet | session.go:52-62 | Saving then getting under one token gives back the saved data, and other tokens keep their entries. |
| Sessions.StoreGet | session.go:76 | The in-memory store always gives data; the sessionless store gives nil and no error. |
| Sessions.Session.constructor | server.go:148-151 | A session starts with its store and request, no token and no data. |
| Sessions.Session.Load | session.go:73-102 | The token is the store's ParseToken of the request's headers: InMemoryToken for the in-memory store, empty for the sessionless one. A store error is returned and leaves Data as it was. Otherwise Data is what the store gave. With the sessionless store the token is empty and Data nil. |
| Sessions.Session.Save | session.go:104-119 | The in-memory store panics exactly on nil data, and otherwise stores the data under the token. The response's set-cookie becomes session_token with the token and Max-Age 86400 exactly when there is a token and no panic. |
| Sessions.Session.Delete | session.go:121-130 | The token leaves the in-memory store, the set-cookie becomes an empty session_token with Max-Age 0 (for -1), and Data is nil. |
| Sessions.Session.Forget | session.go:122-127 | The token leaves an in-memory store and the set-cookie becomes the given cookie's text. |
| Server.Registration | server.go:88-110 | Registration succeeds exactly when the type, one pointer level removed, is an interface with a single zero-argument method returning []byte. A non-interface panics with one message and a wrong method shape with the other. |
| Server.ComputeImplements | server.go:132-135 | The map has exactly the registry's tokens, each mapped to whether the response type implements its capability. |
| Server.FailureFrom | server.go:298-314 | The first middleware from a given index on that returns an error, each seeing the session as those before it left it: all between pass. None exactly when all from there pass. |
| Server.SessionAtLeft | server.go:298-305 | Within the server's middlewares, the joined list carries the session as the server's list does. |
| Server.SessionAtRight | server.go:307-314 | Within the route's middlewares, the joined list carries the session as the route's list does, starting from what the server's left. |
| Server.FailureFromRight | server.go:307-314 | Within the route's middlewares, the joined list fails where the route's list fails, offset by the server list's length. |
| Server.FailureFromLeft | server.go:298-314 | From a place in the server's middlewares, the joined list fails in the server's list, else in the route's. |
| Server.FirstFailureAppend | server.go:298-314 | Running two lists one after the other stops at the first failure of the first list, else at the first failure of the second, offset by the first list's length; the second list starts from the session the first left, and the session afterwards is the one list's. |
| Server.RunMiddlewares | server.go:298-305 | The middleware loop stops at and reports the first failing middleware. Each middleware sees the session as those before it left it, and the request ends with the session the last one run left. |
| Server.MatchEntry | server.go:181-203 | One pass of the Accept loop chooses what EntryMatch specifies. |
| Server.NegotiateLoop | server.go:176-213 | The Accept loop chooses what Negotiate specifies. |
| Server.SwitchEncoding | server.go:347-371 | One trimmed entry adds its compressor's Content-Encoding value when it names one. Otherwise, identity included, the headers are unchanged. |
| Server.ChooseFromAt | server.go:346-372 | The encoding chosen from entry i on is entry i's compressor when it names one, and otherwise the choice from i+1 on. |
| Server.EncodingLoop | server.go:344-372 | Chooses the first compressor named and adds exactly its one Content-Encoding value. With none named, the headers are unchanged. |
| Server.InlineDecodeOutcomes | server.go:218-294 | An empty body is no body. Otherwise the body is decoded or the answer is 400, or 500 when reading fails. An unknown media type keeps the zero body. |
| Server.InlineAgreesWithReadBody | server.go:218-294 | The inline decoder and readBody agree on every body that readBody accepts. An unsupported type fails only in readBody. Every other readBody failure is 500 for a read failure and 400 otherwise. |
| Server.DecodeInline | server.go:218-294 | The status and Body are those that InlineDecode describes. |
| Server.InlineMediaStep | server.go:228-290 | The switch on a parsed media type gives the status and Body that InlineMedia, the matching part of InlineDecode, describes. |
| Server.Server.New | server.go:73-86 | A new server has the given store, no middlewares, and exactly html, csv and json registered. |
| Server.Server.RegisterContentTypeInterface | server.go:88-112 | A valid capability adds or replaces only its token. An invalid one panics with its message and leaves the registry unchanged. |
| Server.Server.Middleware | server.go:114-117 | Appends the middleware after the existing ones. |
| Server.SuccessHeadersFields | server.go:344-379 | A successful answer has Content-Encoding exactly when a compressor was chosen, with that one value. It has the session cookie exactly when there is a token. No other field is set. |
| Server.RespondOutcomes | server.go:139-384 | An unknown method is 501 and a method without a handler is 405, before anything runs. 406 exactly when nothing in Accept is acceptable. A 418 means a middleware failed and the handler never ran. The handler runs only after all middlewares pass, and gives 200, 400, or no answer when the in-memory store is left nil data. Only a 200 has headers or content, and its headers are the encoding and the session cookie; with the in-memory store a 200 ends with session data to save. |
| Server.RespondTailOutcomes | server.go:298-382 | 418 exactly when a middleware fails, counting up to the failing one, with the session as the middlewares left it. The handler runs exactly when all pass, and sees the session they left. 400 exactly when the handler fails. No answer exactly when the handler succeeds and leaves nil data for the in-memory store. A 200 carries the negotiated content, the success headers and the session the handler left. |
| Server.Loaded | server.go:153-158 | The in-memory store always yields data after load. |
| Server.Endpoint.constructor | server.go:139 | The closure captures the server, route, implements map, handlers and body type. |
| Server.Endpoint.Serve | server.go:139-384 | The outcome is Respond applied to the setup, token and loaded data at the time of the request. On a 200 an in-memory store holds, under the token, the session data the middlewares and the handler left; otherwise it is unchanged. |
| Server.Admission | server.go:160-294 | Admits only a verb with a handler, with the capability the negotiation chose, and no body when the body is empty. Otherwise stops with 501, 405, 406, 400 or 500, and with 406 exactly when the verb passes and nothing in Accept is acceptable. |
| Server.Endpoint.Admit | server.go:160-294 | Verb check, handler lookup, negotiation and inline decoding end as Admission describes: with 501, 405, 406, 400 or 500, or with the verb and the decoded body left in the request. |
| Server.Endpoint.Dispatch | server.go:160-384 | Admission, then the middlewares, the handler and the save, with the outcome Respond specifies. On a 200 an in-memory store holds the session data the request ended with. |
| Server.Endpoint.Open | server.go:141-158 | Fresh request, header map and session. The token is the store's and the data is what the load gave, nil on a load error. |
| Server.Endpoint.RunAllMiddlewares | server.go:298-314 | The server's middlewares then the route's run as one list, stopping at the first failure; the request ends with the session the last one run left. |
| Server.Endpoint.Finish | server.go:298-381 | Middlewares, handler and delivery, with the outcome RespondTail specifies, the handler's session data included. The store is saved only on success. |
| Server.Endpoint.Conclude | server.go:342-381 | After a successful handler, the session takes the request's data (server.go:374). The in-memory store's Save of nil data panics and there is no answer. Otherwise a 200 with the content, the chosen Content-Encoding and the session cookie, and the data is stored under the token. |
| Server.ApplyRoute | server.go:124-135 | A fresh route with the path and handlers and no middlewares. Its closure's implements map has exactly the registry's tokens at that time, each true exactly when the response type implements the capability. |
| ErrorHandlers.ErrorHandler.constructor | errors.go:62-66 | The handler keeps its server, function, implements map and reader flag. |
| ErrorHandlers.ApplyErrorHandler | errors.go:61-76 | The handler's reader flag says whether the result type is an io.Reader. Its implements map has exactly the registry's tokens, each true exactly when the type implements the capability. |
| ErrorHandlers.ErrorDeliveryReply | errors.go:36-54 | A negotiated capability takes precedence over the reader. A bare 500 with nothing logged exactly when there is no capability, the type is a reader and its read fails. Otherwise the body is written with the error's code, empty when there is neither capability nor reader. |
| ErrorHandlers.ErrorDeliveryLog | errors.go:49-54 | For a written reply, responseSize is the body's length; a write error is logged exactly when the write fails, and then the request is logged once, last. |
| ErrorHandlers.Apply | errors.go:25-57 | A nil handler does nothing, and the response size ResponseSize reports (request.go:45-47) is kept. Otherwise the reply, log and response size are ErrorDelivery's, for the negotiated capability and the handler's result for the request and error. |
| ErrorHandlers.Send | errors.go:36-54 | The body choice, the response size ResponseSize reports, the write and the log are ErrorDelivery's for the given capability and result. |

## Left out

- The compressors (gzip, flate, brotli) and the write of the body. Only the
  chosen encoding and its Content-Encoding header are modelled.
- `mime.ParseMediaType`, `url.ParseQuery`, `multipart.Reader.ReadForm`,
  `FileHeader.Open`, `json.Unmarshal` and the optional body parsers. They
  are library code; they appear as oracle parameters.
- Reflection: `reflect.Type.Implements` is method-set inclusion, and
  `deliverContentAsInterface` (contentTypes.go) returns what the value's
  method of that name returns. `fn.Call` of the error handler is a plain
  function.
- The dead event-stream goroutine and websocket branch (server.go:316-332).
  Both sit behind `if false`.
- `sync.RWMutex` in the in-memory store: the store is sequential.
- `http.ServeMux`, `HandleFunc`'s panic on a duplicate path, and `Start` /
  `ListenAndServe`.
- The logger's output: `log.Println` calls are dropped. The error handler's
  log is a returned list of entries.
- `Request.Start` and the request's start time, `Context`, and the
  unexported `req` field.
- Cookie header parsing: a request arrives with its cookies parsed. The
  in-memory store's ParseToken reads those cookies instead of the header;
  an application store's ParseToken is given the whole header map.
- `Server.Endpoint.Serve`: middlewares and handlers see a value view of the
  request and change only its session data, which they return. Changes to
  other fields of `*Request` are not modelled. Neither are the type
  assertions on session data: at server.go:374 on the request's session,
  at session.go:95 on what a store's Get returns during load, and at
  session.go:60 in the in-memory Save. A value of another type than the
  route's would panic there; the model's stores and `Sessions.Session.Load`
  never panic on it.
- `Server.Endpoint.Serve`: a panic of the closure (the in-memory store's
  Save of nil data, session.go:57-62) is the outcome `Aborted`, status 0.
  net/http's recovery and the dropped connection are not modelled.
- The route's handlers and middlewares and the server's registry and
  middlewares are Go references that the closure reads when a request
  arrives. The model reads them at that point through `Endpoint.Current`;
  aliasing of the route beyond that is not modelled.
- `Server.Endpoint.Serve`: the Save and Delete of a store the application
  supplies are not modelled. Only the in-memory store's state is stated.
- `Verbs.ParseVerbMatchesNames`: upper-casing is ASCII only. Go's Unicode
  `strings.ToUpper` also maps a few non-ASCII letters to ASCII ones.
- `Http.Base64Encode`: states the length of the encoding, and
  `Http.Base64Alphabet` its alphabet, not each character's value.
- `Parsers.RequestBody.ParseMultipartFormData`: after a failed open, says
  only that Files holds some of the form's keys. It does not say which
  files were already opened.
- `ErrorHandlers.Apply`: errors.go calls a server field `errorHandler`, a
  `Logger`, `determineResponseInterface` and `writeWithContentEncoding`.
  The `Server` struct of server.go:20-25 has no such fields, and server.go
  defines neither function. The model therefore:
  - returns the handler from `ApplyErrorHandler`;
  - negotiates with the total Accept negotiation;
  - takes the write as a `ContentWriter` parameter;
  - returns the log.
- `ErrorHandlers.ApplyErrorHandler`: the stub of the same name at
  server.go:119-121 does nothing and is not modelled separately.
- `ErrorHandlers.ErrorDeliveryLog`: the LogError message is the fixed prefix
  followed by the writer's error text.
- The session type of the in-memory store is taken to be a concrete type.
  For an interface type, session.go:55 gives nil for an unknown token, and
  load (session.go:97-98) then leaves Data nil; `Server.Loaded` and
  `Sessions.StoreGet` state that this store always yields data.
- Widths: `bodySize`, `responseSize` and `Error.Code` are Go `uint`; they
  are `nat` here.
- server.go redeclares `Request` and `Route`, which request.go and route.go
  also declare. Each file's behaviour is modelled separately: `ReadBody`
  follows request.go, the inline decoder follows server.go.
- route.go's handlers return `*Error`, server.go's return `error`. Both are
  a failure that the closure answers with 400.

## Findings

| source | as written | input that shows it | evidently intended | confidence | as-written member | corrected member |
|---|---|---|---|---|---|---|
| server.go:189-190 | The Accept loop indexes `parts[1]` of an entry with no '/' and panics. | An absent Accept header (the single entry "") whose empty token is not a satisfied registration | No representation, answered with 406 (server_test.go:30 expects nil) | not executed | Negotiation.EmptyAcceptPanicsAsWritten | Negotiation.EmptyAcceptNotAcceptable |
| server.go:189-190 | The same index panics on any slash-less entry that is not itself a satisfied token. | The Accept header "DONTPANIC" | No representation (server_test.go:35 expects nil) | not executed | Negotiation.DontPanicPanicsAsWritten | Negotiation.DontPanicNotAcceptable |

The as-written loop is `Negotiation.NegotiateAsWritten`. The total version
is `Negotiation.Negotiate`, which the dispatcher and the error handler use.
`Negotiation.TotalAgreesWithWritten` proves that the two agree wherever the
loop as written does not panic.

=== FILE: capabilities.dfy ===
/**
 * The reflection that the dispatcher performs on Go types, restated as data:
 * a type is described by its shape, an interface by its method signatures, a
 * response type by its method set, and a response value by what its
 * zero-argument []byte methods return.
 */
module Capabilities {
  import opened Wrappers
  import opened Http

  datatype MethodSig = MethodSig(name: string, params: seq<string>, results: seq<string>)

  /** What reflect.TypeOf reports about the value given to RegisterContentTypeInterface. */
  datatype TypeDesc =
    | Pointer(elem: TypeDesc)
    | Interface(name: string, methods: seq<MethodSig>)
    | Named(name: string)

  const ByteSlice: string := "[]byte"

  /** An interface with exactly one method, taking no arguments and returning []byte. */
  predicate IsCapability(t: TypeDesc) {
    && t.Interface?
    && |t.methods| == 1
    && t.methods[0].params == []
    && t.methods[0].results == [ByteSlice]
  }

  type Capability = t: TypeDesc | IsCapability(t)
    witness Interface("Htmler", [MethodSig("AsHtml", [], [ByteSlice])])

  const Htmler: Capability := Interface("Htmler", [MethodSig("AsHtml", [], [ByteSlice])])
  const Csver: Capability := Interface("Csver", [MethodSig("AsCsv", [], [ByteSlice])])
  const Jsoner: Capability := Interface("Jsoner", [MethodSig("AsJson", [], [ByteSlice])])

  /** io.Reader, which an error handler's result type may implement. */
  const Reader: TypeDesc := Interface("io.Reader", [MethodSig("Read", [ByteSlice], ["int", "error"])])

  /** The static type T of a route's or an error handler's result: its method set. */
  datatype ResponseType = ResponseType(methods: set<MethodSig>)

  /** reflect.Type.Implements: every method of the interface is in T's method set. */
  predicate Implements(t: ResponseType, i: TypeDesc)
    requires i.Interface?
  {
    forall k :: 0 <= k < |i.methods| ==> i.methods[k] in t.methods
  }

  /**
   * A value of a response type: what each zero-argument []byte method returns,
   * by method name, and what io.ReadAll yields when the value is read as a stream.
   */
  datatype Value = Value(outputs: map<string, seq<byte>>, stream: Result<seq<byte>, string>)

  /**
   * deliverContentAsInterface: call the capability's single method on the
   * value. The empty result for a value without that method is never reached
   * from a request: a capability is negotiated only when the route's response
   * type implements it, and the handler's value has that type.
   */
  function Deliver(v: Value, c: Capability): seq<byte> {
    var m := c.methods[0].name;
    if m in v.outputs then v.outputs[m] else []
  }
}

=== FILE: errors.dfy ===
/**
 * errors.go: the framework's Error value, and the error handler that a server
 * calls to answer with an error.
 */
module Errors {
  /** An HTTP status code of 400 or more, and what caused it. */
  datatype Error = Error(code: nat, cause: string)
}

/**
 * errors.go: the error handler. ApplyErrorHandler builds it for a result type
 * T; Apply answers one request with an error: the handler's result is
 * delivered in the negotiated form, or read as a stream when T is a reader,
 * with the error's code as the status.
 */
module ErrorHandlers {
  import opened Wrappers
  import opened Http
  import opened Capabilities
  import opened Negotiation
  import opened Errors
  import opened Request
  import opened Server

  /** What the logger is asked to record, in order. */
  datatype LogEntry = LoggedError(message: string) | LoggedRequest

  /** What reaches the response writer. */
  datatype Reply =
    | NoReply
      // WriteHeader(500) alone, when the handler's stream cannot be read
    | StatusOnly(status: nat)
      // the body handed to the compressing writer with the status
    | Written(status: nat, content: seq<byte>, acceptEncoding: string)

  /**
   * The compressing writer: given the body, the Accept-Encoding header and the
   * status, the error it returns, if any.
   */
  type ContentWriter = (seq<byte>, string, nat) -> Option<string>

  /** The outcome of one call: the reply, the log, and the new responseSize if it was set. */
  datatype Delivery = Delivery(reply: Reply, log: seq<LogEntry>, size: Option<nat>)

  const WriteErrorPrefix: string := "Error writing response content: "

  class ErrorHandler {
    const server: Server
    const fn: (RequestView, Error) -> Value
    const implements: map<string, bool>
    const isReader: bool

    constructor (server: Server, fn: (RequestView, Error) -> Value, implements: map<string, bool>, isReader: bool)
      ensures this.server == server && this.fn == fn && this.implements == implements && this.isReader == isReader
    {
      this.server := server;
      this.fn := fn;
      this.implements := implements;
      this.isReader := isReader;
    }
  }

  /**
   * ApplyErrorHandler: the handler remembers whether T is a reader and, for
   * every registered token, whether T satisfies its capability.
   */
  method ApplyErrorHandler(s: Server, t: ResponseType, fn: (RequestView, Error) -> Value)
    returns (handler: ErrorHandler)
    ensures fresh(handler)
    ensures handler.server == s && handler.fn == fn
    ensures handler.isReader == Implements(t, Reader)
    ensures handler.implements.Keys == s.registry.Keys
    ensures forall k :: k in s.registry ==> handler.implements[k] == Implements(t, s.registry[k])
  {
    var implements := ComputeImplements(s.registry, t);
    handler := new ErrorHandler(s, fn, implements, Implements(t, Reader));
  }

  /**
   * The body Apply hands to the writer: the handler's result in the
   * negotiated form, else the stream of a reader (None when it cannot be
   * read), else nothing.
   */
  function ErrorBody(chosen: Option<Capability>, isReader: bool, response: Value): Option<seq<byte>> {
    if chosen.Some? then Some(Deliver(response, chosen.value))
    else if isReader then (if response.stream.Ok? then Some(response.stream.value) else None)
    else Some([])
  }

  /** The log of a written reply: the write error, if there is one, then the request. */
  function WriteLog(e: Option<string>): seq<LogEntry> {
    (if e.Some? then [LoggedError(WriteErrorPrefix + e.value)] else []) + [LoggedRequest]
  }

  /**
   * The body of Apply for a handler that is present: `chosen` is the
   * negotiated capability, `response` the handler's result.
   */
  function ErrorDelivery(chosen: Option<Capability>, isReader: bool, response: Value, code: nat,
                         acceptEncoding: string, write: ContentWriter): Delivery
  {
    var buf := ErrorBody(chosen, isReader, response);
    if buf.None? then Delivery(StatusOnly(StatusInternalServerError), [], None)
    else Delivery(Written(code, buf.value, acceptEncoding), WriteLog(write(buf.value, acceptEncoding, code)),
                  Some(|buf.value|))
  }

  /**
   * What Apply answers with: a bare 500 exactly when there is no capability,
   * the type is a reader and its stream fails; otherwise the error's code
   * with the negotiated form, which wins over the reader, else the stream,
   * else an empty body.
   */
  lemma ErrorDeliveryReply(chosen: Option<Capability>, isReader: bool, response: Value, code: nat,
                           acceptEncoding: string, write: ContentWriter)
    ensures var d := ErrorDelivery(chosen, isReader, response, code, acceptEncoding, write);
      && (d.reply.StatusOnly? <==> chosen.None? && isReader && response.stream.Err?)
      && (d.reply.StatusOnly? ==> d.reply.status == StatusInternalServerError && d.log == [] && d.size == None)
      && !d.reply.NoReply?
      && (d.reply.Written? ==> d.reply.status == code && d.reply.acceptEncoding == acceptEncoding)
      && (chosen.Some? ==> d.reply.Written? && d.reply.content == Deliver(response, chosen.value))
      && (chosen.None? && isReader && response.stream.Ok? ==>
            d.reply.Written? && d.reply.content == response.stream.value)
      && (chosen.None? && !isReader ==> d.reply.Written? && d.reply.content == [])
  {
    var buf := ErrorBody(chosen, isReader, response);
    assert buf.None? <==> chosen.None? && isReader && response.stream.Err?;
  }

  /**
   * What a written reply records: responseSize is the length of the body;
   * the request is logged exactly once, last; a write error is logged before
   * it, and nothing else is.
   */
  lemma ErrorDeliveryLog(chosen: Option<Capability>, isReader: bool, response: Value, code: nat,
                         acceptEncoding: string, write: ContentWriter)
    ensures var d := ErrorDelivery(chosen, isReader, response, code, acceptEncoding, write);
      d.reply.Written? ==>
        && d.size == Some(|d.reply.content|)
        && |d.log| >= 1 && d.log[|d.log| - 1] == LoggedRequest
        && LoggedRequest !in d.log[..|d.log| - 1]
        && (|d.log| == 2 <==> write(d.reply.content, acceptEncoding, code).Some?)
        && (|d.log| == 2 ==> d.log[0] == LoggedError(WriteErrorPrefix + write(d.reply.content, acceptEncoding, code).value))
  {
    var d := ErrorDelivery(chosen, isReader, response, code, acceptEncoding, write);
    if d.reply.Written? {
      var e := write(d.reply.content, acceptEncoding, code);
      assert d.log == WriteLog(e);
      if e.Some? {
        assert d.log[..1] == [LoggedError(WriteErrorPrefix + e.value)];
      } else {
        assert d.log[..0] == [];
      }
    }
  }

  /**
   * errorHandler.Apply: nothing at all for a nil handler; otherwise the
   * negotiation, the handler's call, the choice of body, responseSize, the
   * write and the log.
   */
  method Apply(handler: Option<ErrorHandler>, req: Request, err: Error, write: ContentWriter)
    returns (reply: Reply, log: seq<LogEntry>)
    modifies req`responseSize
    ensures handler.None? ==> reply == NoReply && log == [] && req.ResponseSize() == old(req.ResponseSize())
    ensures handler.Some? ==>
      var h := handler.value;
      var d := ErrorDelivery(Negotiate(h.server.registry, h.implements, Get(req.headers, "Accept")), h.isReader,
                             h.fn(old(req.View()), err), err.code, Get(req.headers, "Accept-Encoding"), write);
      && reply == d.reply && log == d.log
      && req.ResponseSize() == (if d.size.Some? then d.size.value else old(req.ResponseSize()))
  {
    if handler.None? {
      return NoReply, [];
    }
    var h := handler.value;
    var chosen := NegotiateLoop(h.server.registry, h.implements, Get(req.headers, "Accept"));
    var response := h.fn(req.View(), err);
    reply, log := Send(req, chosen, h.isReader, response, err.code, write);
  }

  /**
   * The rest of Apply once the handler has answered: the choice of body,
   * responseSize, the write and the log.
   */
  method Send(req: Request, chosen: Option<Capability>, isReader: bool, response: Value, code: nat,
              write: ContentWriter)
    returns (reply: Reply, log: seq<LogEntry>)
    modifies req`responseSize
    ensures var d := ErrorDelivery(chosen, isReader, response, code, Get(req.headers, "Accept-Encoding"), write);
      && reply == d.reply && log == d.log
      && req.ResponseSize() == (if d.size.Some? then d.size.value else old(req.ResponseSize()))
  {
    var buf: seq<byte> := [];
    if chosen.Some? {
      buf := Deliver(response, chosen.value);
    } else if isReader {
      if response.stream.Err? {
        return StatusOnly(StatusInternalServerError), [];
      }
      buf := response.stream.value;
    }
    req.responseSize := |buf|;
    var acceptEncoding := Get(req.headers, "Accept-Encoding");
    var e := write(buf, acceptEncoding, code);
    log := [];
    if e.Some? {
      log := log + [LoggedError(WriteErrorPrefix + e.value)];
    }
    log := log + [LoggedRequest];
    reply := Written(code, buf, acceptEncoding);
  }
}

=== FILE: http.dfy ===
/**
 * The pieces of net/http and of the strings and encoding packages that the
 * dispatch logic relies on: header maps with canonical keys, cookies as they
 * are written into a set-cookie field, strings.Split, strings.TrimSpace and
 * standard base64.
 */
module Http {

  type byte = b: int | 0 <= b < 256

  // ---------------------------------------------------------- status codes

  const StatusOK := 200
  const StatusBadRequest := 400
  const StatusMethodNotAllowed := 405
  const StatusNotAcceptable := 406
  const StatusRequestEntityTooLarge := 413
  const StatusTeapot := 418
  const StatusInternalServerError := 500
  const StatusNotImplemented := 501

  // ---------------------------------------------------------------- strings

  function UpperAscii(c: char): (u: char)
    ensures 'a' <= c <= 'z' ==> 'A' <= u <= 'Z'
    ensures !('a' <= c <= 'z') ==> u == c
  {
    if 'a' <= c <= 'z' then (c as int - 32) as char else c
  }

  function LowerAscii(c: char): (l: char)
    ensures 'A' <= c <= 'Z' ==> 'a' <= l <= 'z'
    ensures !('A' <= c <= 'Z') ==> l == c
  {
    if 'A' <= c <= 'Z' then (c as int + 32) as char else c
  }

  /** strings.ToUpper restricted to ASCII: every lower-case ASCII letter is raised, everything else is kept. */
  function ToUpper(s: string): (u: string)
    ensures |u| == |s|
    ensures forall i :: 0 <= i < |s| ==> u[i] == UpperAscii(s[i])
  {
    if s == [] then [] else [UpperAscii(s[0])] + ToUpper(s[1..])
  }

  /** Text without lower-case ASCII letters is its own upper-cased form. */
  lemma ToUpperFixed(s: string)
    requires forall i :: 0 <= i < |s| ==> !('a' <= s[i] <= 'z')
    ensures ToUpper(s) == s
  {
  }

  /** Upper-casing twice is upper-casing once. */
  lemma {:induction false} ToUpperIdempotent(s: string)
    ensures ToUpper(ToUpper(s)) == ToUpper(s)
  {
    if s != [] {
      ToUpperIdempotent(s[1..]);
      assert ToUpper(s)[1..] == ToUpper(s[1..]);
    }
  }

  /**
   * strings.Split(s, sep) for a one-character separator: the pieces between
   * separators, in order; the empty string gives one empty piece.
   */
  function Split(s: string, sep: char): (parts: seq<string>)
    ensures |parts| >= 1
    decreases |s|
  {
    if s == [] then [""]
    else
      var rest := Split(s[1..], sep);
      if s[0] == sep then [""] + rest else [[s[0]] + rest[0]] + rest[1..]
  }

  /** strings.Join(parts, sep): the inverse of Split. */
  function Join(parts: seq<string>, sep: char): string
    requires |parts| >= 1
  {
    if |parts| == 1 then parts[0] else parts[0] + [sep] + Join(parts[1..], sep)
  }

  /** Split loses nothing: joining the pieces back gives the input. */
  lemma {:induction false} SplitJoin(s: string, sep: char)
    ensures Join(Split(s, sep), sep) == s
  {
    if s != [] {
      var rest := Split(s[1..], sep);
      SplitJoin(s[1..], sep);
      if s[0] != sep && |rest| > 1 {
        assert Split(s, sep)[1..] == rest[1..];
      }
    }
  }

  /** No piece produced by Split contains the separator. */
  lemma {:induction false} SplitPiecesLackSeparator(s: string, sep: char)
    ensures forall i :: 0 <= i < |Split(s, sep)| ==> sep !in Split(s, sep)[i]
  {
    if s != [] {
      SplitPiecesLackSeparator(s[1..], sep);
    }
  }

  /** unicode.IsSpace, the predicate strings.TrimSpace strips by. */
  predicate IsSpace(c: char) {
    c == ' ' || c == '\t' || c == '\n' || c == '\r' || c == '\U{000B}' || c == '\U{000C}'
    || c == '\U{0085}' || c == '\U{00A0}' || c == '\U{1680}'
    || ('\U{2000}' <= c <= '\U{200A}') || c == '\U{2028}' || c == '\U{2029}'
    || c == '\U{202F}' || c == '\U{205F}' || c == '\U{3000}'
  }

  function TrimLeft(s: string): (r: string)
    ensures |r| <= |s| && forall i :: 0 <= i < |r| ==> r[i] == s[|s| - |r| + i]
    ensures r != [] ==> !IsSpace(r[0])
    ensures forall i :: 0 <= i < |s| - |r| ==> IsSpace(s[i])
  {
    if s != [] && IsSpace(s[0]) then
      var r := TrimLeft(s[1..]);
      assert forall i :: 0 <= i < |s| - |r| ==> i == 0 || s[i] == s[1..][i - 1];
      r
    else s
  }

  lemma TrimLeftDropsSpace(s: string)
    requires s != [] && IsSpace(s[0])
    ensures TrimLeft(s) == TrimLeft(s[1..])
  {
  }

  function TrimRight(s: string): (r: string)
    ensures |r| <= |s| && forall i :: 0 <= i < |r| ==> r[i] == s[i]
    ensures r != [] ==> !IsSpace(r[|r| - 1])
    ensures forall i :: |r| <= i < |s| ==> IsSpace(s[i])
  {
    if s != [] && IsSpace(s[|s| - 1]) then TrimRight(s[..|s| - 1]) else s
  }

  /** strings.TrimSpace: the input without its leading and trailing white space. */
  function TrimSpace(s: string): (r: string)
    ensures r != [] ==> !IsSpace(r[0]) && !IsSpace(r[|r| - 1])
    ensures (s == [] || (!IsSpace(s[0]) && !IsSpace(s[|s| - 1]))) ==> r == s
  {
    var t := TrimLeft(s);
    assert s != [] && !IsSpace(s[0]) ==> t == s;
    TrimRight(t)
  }

  /** TrimSpace removes a run of white space at each end and nothing else. */
  lemma TrimSpaceStrips(s: string)
    ensures exists i, j | 0 <= i <= j <= |s| ::
      && TrimSpace(s) == s[i..j]
      && (forall k | 0 <= k < i :: IsSpace(s[k]))
      && (forall k | j <= k < |s| :: IsSpace(s[k]))
  {
    var t := TrimLeft(s);
    var i := |s| - |t|;
    var r := TrimRight(t);
    var j := i + |r|;
    forall k | 0 <= k < |r|
      ensures r[k] == s[i..j][k]
    {
      assert r[k] == t[k];
    }
    forall k | j <= k < |s|
      ensures IsSpace(s[k])
    {
      assert s[k] == t[k - i];
    }
    assert forall k | 0 <= k < i :: IsSpace(s[k]);
    assert TrimSpace(s) == s[i..j];
  }

  // ----------------------------------------------------------- header maps

  /**
   * textproto.CanonicalMIMEHeaderKey for keys made of token characters: the
   * first letter and every letter after '-' upper-case, the others lower-case.
   */
  function CanonicalKey(k: string): (c: string)
    ensures |c| == |k|
  {
    CanonicalFrom(k, true)
  }

  function CanonicalFrom(k: string, upper: bool): (c: string)
    ensures |c| == |k|
  {
    if k == [] then []
    else [if upper then UpperAscii(k[0]) else LowerAscii(k[0])] + CanonicalFrom(k[1..], k[0] == '-')
  }

  /**
   * The rule of the canonical form: the first character and every character
   * after '-' upper-case, every other one lower-case.
   */
  lemma CanonicalKeyLetters(k: string)
    ensures forall i | 0 <= i < |k| ::
      CanonicalKey(k)[i] == if i == 0 || k[i - 1] == '-' then UpperAscii(k[i]) else LowerAscii(k[i])
  {
    forall i | 0 <= i < |k|
      ensures CanonicalKey(k)[i] == if i == 0 || k[i - 1] == '-' then UpperAscii(k[i]) else LowerAscii(k[i])
    {
      CanonicalFromAt(k, true, i);
    }
  }

  lemma {:induction false} CanonicalFromAt(k: string, upper: bool, i: nat)
    requires i < |k|
    ensures CanonicalFrom(k, upper)[i] ==
      if (i == 0 && upper) || (i > 0 && k[i - 1] == '-') then UpperAscii(k[i]) else LowerAscii(k[i])
    decreases i
  {
    if i > 0 {
      CanonicalFromAt(k[1..], k[0] == '-', i - 1);
      assert CanonicalFrom(k, upper)[i] == CanonicalFrom(k[1..], k[0] == '-')[i - 1];
    }
  }

  /** A canonical key is its own canonical form. */
  lemma CanonicalKeyIdempotent(k: string)
    ensures CanonicalKey(CanonicalKey(k)) == CanonicalKey(k)
  {
    CanonicalFromIdempotent(k, true);
  }

  lemma {:induction false} CanonicalFromIdempotent(k: string, upper: bool)
    ensures CanonicalFrom(CanonicalFrom(k, upper), upper) == CanonicalFrom(k, upper)
    decreases |k|
  {
    if k != [] {
      var c := CanonicalFrom(k, upper);
      assert c[0] == (if upper then UpperAscii(k[0]) else LowerAscii(k[0]));
      assert c[1..] == CanonicalFrom(k[1..], k[0] == '-');
      assert (c[0] == '-') == (k[0] == '-');
      CanonicalFromIdempotent(k[1..], k[0] == '-');
    }
  }

  /** An http.Header: canonical field name to its values, in the order they were added. */
  type Header = map<string, seq<string>>

  /** Header.Values: every value of a field, none when it is absent. */
  function Values(h: Header, key: string): seq<string> {
    var c := CanonicalKey(key);
    if c in h then h[c] else []
  }

  /** Header.Get: the first value of a field, or "" when it has none. */
  function Get(h: Header, key: string): string {
    var vs := Values(h, key);
    if |vs| > 0 then vs[0] else ""
  }

  /** Header.Set: the field now has exactly the one value given. */
  function SetField(h: Header, key: string, v: string): (r: Header)
    ensures Values(r, key) == [v]
    ensures forall k :: CanonicalKey(k) != CanonicalKey(key) ==> Values(r, k) == Values(h, k)
  {
    h[CanonicalKey(key) := [v]]
  }

  /** Header.Add: the value is appended to the field's existing values. */
  function AddField(h: Header, key: string, v: string): (r: Header)
    ensures Values(r, key) == Values(h, key) + [v]
    ensures forall k :: CanonicalKey(k) != CanonicalKey(key) ==> Values(r, k) == Values(h, k)
  {
    h[CanonicalKey(key) := Values(h, key) + [v]]
  }

  /** Get after Set reads back the value set; fields with another canonical name read as before. */
  lemma GetAfterSet(h: Header, key: string, v: string, other: string)
    ensures Get(SetField(h, key, v), key) == v
    ensures CanonicalKey(other) != CanonicalKey(key) ==> Get(SetField(h, key, v), other) == Get(h, other)
  {
  }

  /**
   * Get after Add reads the value added when the field had none, and the
   * field's first value otherwise; fields with another canonical name read as before.
   */
  lemma GetAfterAdd(h: Header, key: string, v: string, other: string)
    ensures Get(AddField(h, key, v), key) == if Values(h, key) == [] then v else Get(h, key)
    ensures CanonicalKey(other) != CanonicalKey(key) ==> Get(AddField(h, key, v), other) == Get(h, other)
  {
  }

  /**
   * A header map that several holders share by reference, as the response
   * writer and the Request share `w.Header()`.
   */
  class HeaderMap {
    var fields: Header

    constructor (initial: Header)
      ensures fields == initial
    {
      fields := initial;
    }

    method Set(key: string, v: string)
      modifies this
      ensures fields == SetField(old(fields), key, v)
    {
      fields := SetField(fields, key, v);
    }

    method Add(key: string, v: string)
      modifies this
      ensures fields == AddField(old(fields), key, v)
    {
      fields := AddField(fields, key, v);
    }
  }

  // ---------------------------------------------------------------- cookies

  datatype Cookie = Cookie(name: string, value: string, maxAge: int)

  function DigitChar(d: nat): (c: char)
    requires d < 10
    ensures '0' <= c <= '9'
  {
    ('0' as int + d) as char
  }

  /** strconv.Itoa for a natural number. */
  function NatToString(n: nat): string {
    if n < 10 then [DigitChar(n)] else NatToString(n / 10) + [DigitChar(n % 10)]
  }

  /**
   * Cookie.String for a cookie that sets only name, value and max-age:
   * "name=value", then "; Max-Age=n" for a positive n and "; Max-Age=0" for a
   * negative one.
   */
  function CookieString(c: Cookie): string {
    c.name + "=" + c.value
      + (if c.maxAge > 0 then "; Max-Age=" + NatToString(c.maxAge)
         else if c.maxAge < 0 then "; Max-Age=0"
         else "")
  }

  // ----------------------------------------------------------------- base64

  /** The characters of the standard base64 alphabet. */
  predicate IsBase64Char(c: char) {
    ('A' <= c <= 'Z') || ('a' <= c <= 'z') || ('0' <= c <= '9') || c == '+' || c == '/'
  }

  /** The n-th character of "ABC…XYZabc…xyz012…789+/". */
  function Base64Char(n: nat): (c: char)
    requires n < 64
    ensures IsBase64Char(c)
  {
    if n < 26 then ('A' as int + n) as char
    else if n < 52 then ('a' as int + (n - 26)) as char
    else if n < 62 then ('0' as int + (n - 52)) as char
    else if n == 62 then '+'
    else '/'
  }

  /** The four characters standing for one full group of three bytes. */
  function Base64Quad(b0: byte, b1: byte, b2: byte): (q: string)
    ensures |q| == 4 && forall i :: 0 <= i < 4 ==> IsBase64Char(q[i])
  {
    [Base64Char(b0 / 4), Base64Char((b0 % 4) * 16 + b1 / 16),
     Base64Char((b1 % 16) * 4 + b2 / 64), Base64Char(b2 % 64)]
  }

  /** The padded four characters standing for a last group of one or two bytes. */
  function Base64Tail(b: seq<byte>): (q: string)
    requires 1 <= |b| <= 2
    ensures |q| == 4
  {
    if |b| == 1 then [Base64Char(b[0] / 4), Base64Char((b[0] % 4) * 16), '=', '=']
    else [Base64Char(b[0] / 4), Base64Char((b[0] % 4) * 16 + b[1] / 16), Base64Char((b[1] % 16) * 4), '=']
  }

  /**
   * base64.StdEncoding.EncodeToString: each group of three bytes becomes four
   * characters, a short last group is padded with '='.
   */
  function Base64Encode(b: seq<byte>): (s: string)
    ensures |s| == 4 * ((|b| + 2) / 3)
  {
    if |b| == 0 then ""
    else if |b| <= 2 then Base64Tail(b)
    else
      var rest := Base64Encode(b[3..]);
      var k := (|b[3..]| + 2) / 3;
      assert (|b| + 2) / 3 == k + 1;
      Base64Quad(b[0], b[1], b[2]) + rest
  }

  /** Input whose length is a multiple of three encodes to alphabet characters only. */
  lemma {:induction false} Base64Alphabet(b: seq<byte>)
    requires |b| % 3 == 0
    ensures forall i :: 0 <= i < |Base64Encode(b)| ==> IsBase64Char(Base64Encode(b)[i])
  {
    if |b| > 0 {
      Base64Alphabet(b[3..]);
      var q := Base64Quad(b[0], b[1], b[2]);
      var rest := Base64Encode(b[3..]);
      assert Base64Encode(b) == q + rest;
      forall i | 0 <= i < |q + rest|
        ensures IsBase64Char((q + rest)[i])
      {
        if i >= 4 {
          assert (q + rest)[i] == rest[i - 4];
        }
      }
    }
  }
}

=== FILE: negotiation.dfy ===
/**
 * The two negotiations of the dispatch closure in server.go, as functions:
 * which registered capability answers the Accept header, and which
 * compressor answers the Accept-Encoding header.
 */
module Negotiation {
  import opened Wrappers
  import opened Http
  import opened Capabilities

  /** Server.contentTypeInterfaces: content-type token to the capability registered for it. */
  type Registry = map<string, Capability>

  /** implements[token] as Go reads it: a token missing from the map reads false. */
  predicate Satisfied(implements: map<string, bool>, token: string) {
    token in implements && implements[token]
  }

  /** One lookup of the loop: the registered capability, if the route's type satisfies it. */
  function Attempt(reg: Registry, implements: map<string, bool>, token: string): Option<Capability> {
    if token in reg && Satisfied(implements, token) then Some(reg[token]) else None
  }

  /** The entries tried: the text before the first ';', split on ','; no trimming. */
  function AcceptEntries(accept: string): seq<string> {
    Split(Split(accept, ';')[0], ',')
  }

  /**
   * The attempts for one entry, in order: the entry itself, then its subtype
   * (the piece after the first '/'), then, when that subtype is "*", its type.
   * An entry without '/' gets only the first attempt: the source indexes the
   * second piece unconditionally there and panics (see EntryMatchAsWritten).
   */
  function EntryMatch(reg: Registry, implements: map<string, bool>, entry: string): Option<Capability> {
    var exact := Attempt(reg, implements, entry);
    if exact.Some? then exact
    else
      var parts := Split(entry, '/');
      if |parts| < 2 then None
      else
        var sub := Attempt(reg, implements, parts[1]);
        if sub.Some? then sub
        else if parts[1] == "*" then Attempt(reg, implements, parts[0])
        else None
  }

  /** The first entry, left to right, that has a match. */
  function FirstMatch(reg: Registry, implements: map<string, bool>, entries: seq<string>): Option<Capability> {
    if entries == [] then None
    else if EntryMatch(reg, implements, entries[0]).Some? then EntryMatch(reg, implements, entries[0])
    else FirstMatch(reg, implements, entries[1..])
  }

  /** The first entry that has a match decides, whatever follows it. */
  lemma {:induction false} FirstMatchFirst(reg: Registry, implements: map<string, bool>, entries: seq<string>, i: nat)
    requires i < |entries| && EntryMatch(reg, implements, entries[i]).Some?
    requires forall j :: 0 <= j < i ==> EntryMatch(reg, implements, entries[j]).None?
    ensures FirstMatch(reg, implements, entries) == EntryMatch(reg, implements, entries[i])
  {
    if i > 0 {
      assert EntryMatch(reg, implements, entries[0]).None?;
      assert forall j :: 0 <= j < i - 1 ==> entries[1..][j] == entries[j + 1];
      FirstMatchFirst(reg, implements, entries[1..], i - 1);
    }
  }

  /** When no entry has a match, nothing is chosen. */
  lemma {:induction false} FirstMatchNone(reg: Registry, implements: map<string, bool>, entries: seq<string>)
    requires forall j :: 0 <= j < |entries| ==> EntryMatch(reg, implements, entries[j]).None?
    ensures FirstMatch(reg, implements, entries) == None
  {
    if entries != [] {
      assert forall j :: 0 <= j < |entries| - 1 ==> entries[1..][j] == entries[j + 1];
      FirstMatchNone(reg, implements, entries[1..]);
    }
  }

  /** A single entry is tried alone. */
  lemma FirstMatchSingle(reg: Registry, implements: map<string, bool>, entry: string)
    ensures FirstMatch(reg, implements, [entry]) == EntryMatch(reg, implements, entry)
  {
    assert [entry][1..] == [];
  }

  /**
   * determineResponseInterface in its total form: the capability chosen for
   * an Accept header, or None, which the dispatcher answers with 406.
   */
  function Negotiate(reg: Registry, implements: map<string, bool>, accept: string): Option<Capability> {
    FirstMatch(reg, implements, AcceptEntries(accept))
  }

  /** Whatever is chosen is registered under a token the route's type satisfies. */
  lemma {:induction false} ChosenIsSatisfied(reg: Registry, implements: map<string, bool>, entries: seq<string>)
    ensures var r := FirstMatch(reg, implements, entries);
      r.Some? ==> exists t :: t in reg && Satisfied(implements, t) && reg[t] == r.value
  {
    if entries != [] {
      var m := EntryMatch(reg, implements, entries[0]);
      if m.Some? {
        var parts := Split(entries[0], '/');
        if Attempt(reg, implements, entries[0]).Some? {
          assert reg[entries[0]] == m.value;
        } else if Attempt(reg, implements, parts[1]).Some? {
          assert reg[parts[1]] == m.value;
        } else {
          assert reg[parts[0]] == m.value;
        }
      } else {
        ChosenIsSatisfied(reg, implements, entries[1..]);
      }
    }
  }

  /** Splitting text that has no separator gives the text back whole. */
  lemma {:induction false} SplitWithoutSeparator(s: string, sep: char)
    requires sep !in s
    ensures Split(s, sep) == [s]
  {
    if s != [] {
      SplitWithoutSeparator(s[1..], sep);
      assert [s[0]] + s[1..] == s;
    }
  }

  /** Splitting at a first separator: the piece before it, then the split of the rest. */
  lemma {:induction false} SplitAtFirst(p: string, sep: char, t: string)
    requires sep !in p
    ensures Split(p + [sep] + t, sep) == [p] + Split(t, sep)
  {
    if p == [] {
      assert p + [sep] + t == [sep] + t;
      assert ([sep] + t)[1..] == t;
    } else {
      assert (p + [sep] + t)[1..] == p[1..] + [sep] + t;
      SplitAtFirst(p[1..], sep, t);
      assert [p[0]] + p[1..] == p;
    }
  }

  /** Two pieces around the only separator. */
  lemma SplitInTwo(p: string, sep: char, t: string)
    requires sep !in p && sep !in t
    ensures Split(p + [sep] + t, sep) == [p, t]
  {
    SplitAtFirst(p, sep, t);
    SplitWithoutSeparator(t, sep);
  }

  /** Parameters after the first ';' (weights included) never affect the choice. */
  lemma ParametersIgnored(reg: Registry, implements: map<string, bool>, p: string, t: string)
    requires ';' !in p
    ensures Negotiate(reg, implements, p + ";" + t) == Negotiate(reg, implements, p)
  {
    SplitAtFirst(p, ';', t);
    SplitWithoutSeparator(p, ';');
  }

  // ------------------------------------------------ the loop as it is written

  /** The loop's outcome as written, where indexing a missing piece panics. */
  datatype Negotiated = Chosen(c: Capability) | NothingAcceptable | Panicked

  function EntryMatchAsWritten(reg: Registry, implements: map<string, bool>, entry: string): Negotiated {
    var exact := Attempt(reg, implements, entry);
    if exact.Some? then Chosen(exact.value)
    else
      var parts := Split(entry, '/');
      if |parts| < 2 then Panicked
      else
        var sub := Attempt(reg, implements, parts[1]);
        if sub.Some? then Chosen(sub.value)
        else if parts[1] == "*" && Attempt(reg, implements, parts[0]).Some? then Chosen(Attempt(reg, implements, parts[0]).value)
        else NothingAcceptable
  }

  function FirstMatchAsWritten(reg: Registry, implements: map<string, bool>, entries: seq<string>): Negotiated {
    if entries == [] then NothingAcceptable
    else
      var m := EntryMatchAsWritten(reg, implements, entries[0]);
      if m.NothingAcceptable? then FirstMatchAsWritten(reg, implements, entries[1..]) else m
  }

  /** The negotiation loop of server.go exactly as written. */
  function NegotiateAsWritten(reg: Registry, implements: map<string, bool>, accept: string): Negotiated {
    FirstMatchAsWritten(reg, implements, AcceptEntries(accept))
  }

  /**
   * As written, a request without an Accept header panics: the single empty
   * entry is not registered, and its split has no second piece.
   */
  lemma EmptyAcceptPanicsAsWritten(reg: Registry, implements: map<string, bool>)
    requires !Satisfied(implements, "") || "" !in reg
    ensures NegotiateAsWritten(reg, implements, "") == Panicked
  {
    assert AcceptEntries("") == [""];
  }

  /**
   * As written, an Accept header that is one entry without '/', ';' or ','
   * panics unless the entry is itself a satisfied token.
   */
  lemma SlashlessPanicsAsWritten(reg: Registry, implements: map<string, bool>, accept: string)
    requires '/' !in accept && ';' !in accept && ',' !in accept
    requires !Satisfied(implements, accept) || accept !in reg
    ensures NegotiateAsWritten(reg, implements, accept) == Panicked
  {
    SplitWithoutSeparator(accept, ';');
    SplitWithoutSeparator(accept, ',');
    SplitWithoutSeparator(accept, '/');
    assert AcceptEntries(accept) == [accept];
    assert EntryMatchAsWritten(reg, implements, accept) == Panicked;
  }

  /** The total version answers such a header with "nothing acceptable". */
  lemma SlashlessNotAcceptable(reg: Registry, implements: map<string, bool>, accept: string)
    requires '/' !in accept && ';' !in accept && ',' !in accept
    requires !Satisfied(implements, accept) || accept !in reg
    ensures Negotiate(reg, implements, accept) == None
  {
    SplitWithoutSeparator(accept, ';');
    SplitWithoutSeparator(accept, ',');
    SplitWithoutSeparator(accept, '/');
    assert AcceptEntries(accept) == [accept];
    assert EntryMatch(reg, implements, accept) == None;
    FirstMatchSingle(reg, implements, accept);
  }

  /** As written, the slash-less entry "DONTPANIC" panics unless it is itself a satisfied token. */
  lemma DontPanicPanicsAsWritten(reg: Registry, implements: map<string, bool>)
    requires !Satisfied(implements, "DONTPANIC") || "DONTPANIC" !in reg
    ensures NegotiateAsWritten(reg, implements, "DONTPANIC") == Panicked
  {
    SlashlessPanicsAsWritten(reg, implements, "DONTPANIC");
  }

  /** The total version answers a request without an Accept header with "nothing acceptable". */
  lemma EmptyAcceptNotAcceptable(reg: Registry, implements: map<string, bool>)
    requires !Satisfied(implements, "") || "" !in reg
    ensures Negotiate(reg, implements, "") == None
  {
    assert AcceptEntries("") == [""];
    assert Split("", '/') == [""];
    FirstMatchSingle(reg, implements, "");
  }

  /** The total version answers "DONTPANIC" with "nothing acceptable", as the tests expect. */
  lemma DontPanicNotAcceptable(reg: Registry, implements: map<string, bool>)
    requires !Satisfied(implements, "DONTPANIC") || "DONTPANIC" !in reg
    ensures Negotiate(reg, implements, "DONTPANIC") == None
  {
    SlashlessNotAcceptable(reg, implements, "DONTPANIC");
  }

  /** The written loop's reading of an Option result. */
  function AsNegotiated(r: Option<Capability>): Negotiated {
    if r.Some? then Chosen(r.value) else NothingAcceptable
  }

  /** Wherever the written loop does not panic, the total version chooses the same. */
  lemma {:induction false} TotalAgreesWithWritten(reg: Registry, implements: map<string, bool>, entries: seq<string>)
    requires FirstMatchAsWritten(reg, implements, entries) != Panicked
    ensures FirstMatchAsWritten(reg, implements, entries) == AsNegotiated(FirstMatch(reg, implements, entries))
  {
    if entries != [] {
      var m := EntryMatchAsWritten(reg, implements, entries[0]);
      if m.NothingAcceptable? {
        TotalAgreesWithWritten(reg, implements, entries[1..]);
      }
    }
  }

  // ----------------------------------------------------- Accept-Encoding

  datatype Encoding = Gzip | Deflate | Brotli

  /** The Content-Encoding value of each compressor. */
  function EncodingToken(e: Encoding): string {
    match e
    case Gzip => "gzip"
    case Deflate => "deflate"
    case Brotli => "br"
  }

  /** The cases of the switch that leave the loop; "identity" and anything else do not. */
  function Recognise(token: string): (r: Option<Encoding>)
    ensures r.Some? ==> EncodingToken(r.value) == token
    ensures r.None? ==> forall e: Encoding :: EncodingToken(e) != token
  {
    if token == "gzip" then Some(Gzip)
    else if token == "deflate" then Some(Deflate)
    else if token == "br" then Some(Brotli)
    else None
  }

  /** What one entry of the header asks for: its trimmed text, if that names a compressor. */
  function EntryEncoding(entry: string): (r: Option<Encoding>)
    ensures r.Some? ==> EncodingToken(r.value) == TrimSpace(entry)
    ensures r.None? ==> forall e: Encoding :: EncodingToken(e) != TrimSpace(entry)
  {
    Recognise(TrimSpace(entry))
  }

  /** The first entry, left to right, that names a compressor. */
  function ChooseFrom(entries: seq<string>): Option<Encoding> {
    if entries == [] then None
    else if EntryEncoding(entries[0]).Some? then EntryEncoding(entries[0])
    else ChooseFrom(entries[1..])
  }

  /** The first entry that names a compressor decides, whatever follows it. */
  lemma {:induction false} ChooseFromFirst(entries: seq<string>, i: nat)
    requires i < |entries| && EntryEncoding(entries[i]).Some?
    requires forall j :: 0 <= j < i ==> EntryEncoding(entries[j]).None?
    ensures ChooseFrom(entries) == EntryEncoding(entries[i])
  {
    if i > 0 {
      var rest := entries[1..];
      assert EntryEncoding(entries[0]).None?;
      assert rest[i - 1] == entries[i];
      forall j | 0 <= j < i - 1
        ensures EntryEncoding(rest[j]).None?
      {
        assert rest[j] == entries[j + 1];
      }
      ChooseFromFirst(rest, i - 1);
    }
  }

  /** When no entry names a compressor, none is chosen. */
  lemma {:induction false} ChooseFromNone(entries: seq<string>)
    requires forall j :: 0 <= j < |entries| ==> EntryEncoding(entries[j]).None?
    ensures ChooseFrom(entries) == None
  {
    if entries != [] {
      assert forall j :: 0 <= j < |entries| - 1 ==> entries[1..][j] == entries[j + 1];
      ChooseFromNone(entries[1..]);
    }
  }

  /** The compressor chosen for an Accept-Encoding header; None means the body goes out as it is. */
  function ChooseEncoding(acceptEncoding: string): Option<Encoding> {
    ChooseFrom(Split(acceptEncoding, ','))
  }
  /** An Accept header with one entry and no parameters is tried as that one entry. */
  lemma SingleEntry(accept: string)
    requires ';' !in accept && ',' !in accept
    ensures AcceptEntries(accept) == [accept]
  {
    SplitWithoutSeparator(accept, ';');
    SplitWithoutSeparator(accept, ',');
  }

  /** A header with a single entry and no parameters is decided by that entry alone. */
  lemma SingleEntryDecides(reg: Registry, implements: map<string, bool>, entry: string)
    requires ';' !in entry && ',' !in entry
    ensures Negotiate(reg, implements, entry) == EntryMatch(reg, implements, entry)
  {
    SingleEntry(entry);
    FirstMatchSingle(reg, implements, entry);
  }

  /**
   * For an entry "type/subtype": the exact entry, then the subtype, then,
   * for a "*" subtype, the type.
   */
  lemma TypeSubtypeOrder(reg: Registry, implements: map<string, bool>, t: string, sub: string)
    requires '/' !in t && '/' !in sub
    ensures EntryMatch(reg, implements, t + "/" + sub) ==
      if Attempt(reg, implements, t + "/" + sub).Some? then Attempt(reg, implements, t + "/" + sub)
      else if Attempt(reg, implements, sub).Some? then Attempt(reg, implements, sub)
      else if sub == "*" then Attempt(reg, implements, t)
      else None
  {
    SplitInTwo(t, '/', sub);
  }
}

=== FILE: negotiation_examples.dfy ===
/**
 * The cases of TestDetermineResponseInterface in server_test.go, and the
 * Accept-Encoding scenarios, as facts about the negotiation functions.
 */
module NegotiationExamples {
  import opened Wrappers
  import opened Http
  import opened Capabilities
  import opened Negotiation

  /** "gzip, br": gzip comes first and wins; br is never looked at. */
  lemma GzipBeforeBrotli()
    ensures ChooseEncoding("gzip, br") == Some(Gzip)
  {
    var header := "gzip, br";
    assert Split(header, ',') == ["gzip", " br"] by {
      assert header == "gzip" + [','] + " br";
      SplitInTwo("gzip", ',', " br");
    }
    GzipFirst(["gzip", " br"]);
  }

  lemma GzipFirst(entries: seq<string>)
    requires entries == ["gzip", " br"]
    ensures ChooseFrom(entries) == Some(Gzip)
  {
    BareGzip(entries[0]);
  }

  lemma BareGzip(t: string)
    requires t == "gzip"
    ensures EntryEncoding(t) == Some(Gzip)
  {
    assert !IsSpace(t[0]) && !IsSpace(t[|t| - 1]);
    assert TrimLeft(t) == t && TrimSpace(t) == t;
  }

  /** "identity" only ends the switch, not the scan: a later compressor is still chosen. */
  lemma IdentityDoesNotStopTheScan()
    ensures ChooseEncoding("identity, br") == Some(Brotli)
  {
    var header := "identity, br";
    assert Split(header, ',') == ["identity", " br"] by {
      assert header == "identity" + [','] + " br";
      SplitInTwo("identity", ',', " br");
    }
    IdentityThenBrotli(["identity", " br"]);
  }

  lemma IdentityThenBrotli(entries: seq<string>)
    requires entries == ["identity", " br"]
    ensures ChooseFrom(entries) == Some(Brotli)
  {
    assert EntryEncoding(entries[0]) == None;
    BrotliEntry(entries[1]);
    assert entries[1..] == [entries[1]];
  }

  lemma BrotliEntry(entry: string)
    requires entry == " br"
    ensures EntryEncoding(entry) == Some(Brotli)
  {
    LeadingBlank(entry);
    TrimLeftDropsSpace(entry);
    BareBrotli(entry[1..]);
  }

  lemma LeadingBlank(entry: string)
    requires entry == " br"
    ensures IsSpace(entry[0]) && entry[1..] == "br"
  {
  }

  lemma BareBrotli(t: string)
    requires t == "br"
    ensures TrimLeft(t) == t && TrimSpace(t) == t && Recognise(t) == Some(Brotli)
  {
    assert !IsSpace(t[0]) && !IsSpace(t[|t| - 1]);
  }

  /**
   * The header "t/sub", one entry without parameters, is tried as itself,
   * then as its subtype, then, for "*", as its type.
   */
  lemma TypeThenSubtype(reg: Registry, implements: map<string, bool>, accept: string, t: string, sub: string)
    requires accept == t + "/" + sub
    requires (t == "text" && (sub == "html" || sub == "*")) || (t == "application" && sub == "json")
    ensures Negotiate(reg, implements, accept) ==
      if Attempt(reg, implements, accept).Some? then Attempt(reg, implements, accept)
      else if Attempt(reg, implements, sub).Some? then Attempt(reg, implements, sub)
      else if sub == "*" then Attempt(reg, implements, t)
      else None
  {
    assert '/' !in t && '/' !in sub && ';' !in t && ';' !in sub && ',' !in t && ',' !in sub;
    assert ';' !in accept && ',' !in accept;
    SingleEntryDecides(reg, implements, accept);
    TypeSubtypeOrder(reg, implements, t, sub);
  }

  const TestXmler: Capability := Interface("TestXmler", [MethodSig("AsXml", [], [ByteSlice])])
  const TestTexter: Capability := Interface("TestTexter", [MethodSig("Text", [], [ByteSlice])])

  /** The registry of the test: the three of New, then "text/xml" and "text". */
  const TestRegistry: Registry := map["html" := Htmler, "csv" := Csver, "json" := Jsoner,
                                      "text/xml" := TestXmler, "text" := TestTexter]

  lemma ExactTokenMatches()
    ensures Negotiate(TestRegistry, map["text/xml" := true], "text/xml") == Some(TestXmler)
  {
    SingleEntry("text/xml");
    assert EntryMatch(TestRegistry, map["text/xml" := true], "text/xml") == Some(TestXmler);
  }

  lemma SubtypeMatches()
    ensures Negotiate(TestRegistry, map["html" := true], "text/html") == Some(Htmler)
  {
    SubtypeMatchesAt(map["html" := true], "text/html");
  }

  // The case above with its literals as parameters, which keeps the solver from unfolding them.
  lemma SubtypeMatchesAt(impl: map<string, bool>, accept: string)
    requires impl == map["html" := true] && accept == "text/html"
    ensures Negotiate(TestRegistry, impl, accept) == Some(Htmler)
  {
    TypeThenSubtype(TestRegistry, impl, accept, "text", "html");
    assert Attempt(TestRegistry, impl, accept) == None;
    assert Attempt(TestRegistry, impl, "html") == Some(Htmler);
  }

  lemma UnsatisfiedSubtypeIsNotAcceptable()
    ensures Negotiate(TestRegistry, map["text/csv" := true], "text/html") == None
  {
    var impl, accept := map["text/csv" := true], "text/html";
    TypeThenSubtype(TestRegistry, impl, accept, "text", "html");
    assert Attempt(TestRegistry, impl, accept) == None;
    assert Attempt(TestRegistry, impl, "html") == None;
    assert Attempt(TestRegistry, impl, "text") == None;
  }

  lemma WildcardSubtypeFallsBackToType()
    ensures Negotiate(TestRegistry, map["text" := true], "text/*") == Some(TestTexter)
  {
    var impl, accept := map["text" := true], "text/*";
    TypeThenSubtype(TestRegistry, impl, accept, "text", "*");
    assert Attempt(TestRegistry, impl, accept) == None;
    assert Attempt(TestRegistry, impl, "*") == None;
    assert Attempt(TestRegistry, impl, "text") == Some(TestTexter);
  }

  /** The registry New leaves: html, csv and json. */
  const DefaultRegistry: Registry := map["html" := Htmler, "csv" := Csver, "json" := Jsoner]

  // The wildcard entry text/* tries itself, then "*", then "text", never
  // "html": a route whose type satisfies only the HTML capability is not
  // acceptable for it.
  lemma WildcardDoesNotReachHtml()
    ensures Negotiate(DefaultRegistry, map["html" := true, "csv" := false, "json" := false], "text/*") == None
  {
    var impl, accept := map["html" := true, "csv" := false, "json" := false], "text/*";
    TypeThenSubtype(DefaultRegistry, impl, accept, "text", "*");
    assert Attempt(DefaultRegistry, impl, accept) == None;
    assert Attempt(DefaultRegistry, impl, "*") == None;
    assert Attempt(DefaultRegistry, impl, "text") == None;
  }

  /** A route whose type satisfies JSON and CSV answers "application/json" with JSON. */
  lemma JsonAcceptedByJsonRoute()
    ensures Negotiate(TestRegistry, map["html" := false, "csv" := true, "json" := true], "application/json") == Some(Jsoner)
  {
    JsonAcceptedByJsonRouteAt(map["html" := false, "csv" := true, "json" := true], "application/json");
  }

  // The case above with its literals as parameters, which keeps the solver from unfolding them.
  lemma JsonAcceptedByJsonRouteAt(impl: map<string, bool>, accept: string)
    requires impl == map["html" := false, "csv" := true, "json" := true]
    requires accept == "application/json"
    ensures Negotiate(TestRegistry, impl, accept) == Some(Jsoner)
  {
    TypeThenSubtype(TestRegistry, impl, accept, "application", "json");
    assert Attempt(TestRegistry, impl, accept) == None;
    assert Attempt(TestRegistry, impl, "json") == Some(Jsoner);
  }
}

=== FILE: parsers.dfy ===
/**
 * parsers.go: RequestBody, a body type that implements the form and
 * multipart parser interfaces, and how those parsers classify failures.
 */
module Parsers {
  import opened Wrappers
  import opened Http
  import opened Errors

  /** url.Values: each key's values, in order. */
  type Values = map<string, seq<string>>

  /** A part of a multipart form that carries a file (multipart.FileHeader). */
  datatype FileHeader = FileHeader(filename: string, size: nat)

  /** An opened upload (multipart.File). */
  datatype File = File(filename: string, handle: nat)

  /** multipart.Form: the plain fields and the file parts, by field name. */
  datatype Form = Form(value: Values, file: map<string, seq<FileHeader>>)

  /** How Reader.ReadForm can fail: the body was cut off by a byte limit, or anything else. */
  datatype FormError = MaxBytesExceeded(reason: string) | Malformed(reason: string)

  /** The memory ReadForm may use before it spills parts to disk: 10 MiB. */
  const MaxMemory: nat := 1024 * 1024 * 10

  /** url.ParseQuery applied to the text of the bytes read. */
  type QueryParser = seq<byte> -> Result<Values, string>
  /** multipart.NewReader(input, boundary).ReadForm(maxMemory). */
  type FormReader = (seq<byte>, string, nat) -> Result<Form, FormError>
  /** FileHeader.Open. */
  type Opener = FileHeader -> Result<File, string>

  /** The status a ReadForm failure is answered with. */
  function FormErrorCode(e: FormError): (code: nat)
    ensures code == StatusRequestEntityTooLarge <==> e.MaxBytesExceeded?
    ensures code == StatusBadRequest <==> e.Malformed?
  {
    match e
    case MaxBytesExceeded(_) => StatusRequestEntityTooLarge
    case Malformed(_) => StatusBadRequest
  }

  /** Every file part of the form can be opened. */
  predicate Opens(parts: map<string, seq<FileHeader>>, open: Opener) {
    forall key, i :: key in parts && 0 <= i < |parts[key]| ==> open(parts[key][i]).Ok?
  }

  /** `files` holds, for each listed key, the opened files, one per part and in the parts' order. */
  predicate Aligned(files: map<string, seq<Option<File>>>, parts: map<string, seq<FileHeader>>,
                    keys: set<string>, open: Opener)
  {
    forall key :: key in keys ==>
      && key in files && key in parts && |files[key]| == |parts[key]|
      && forall i :: 0 <= i < |parts[key]| ==>
           open(parts[key][i]).Ok? && files[key][i] == Some(open(parts[key][i]).value)
  }

  class RequestBody {
    var values: Values
    var files: map<string, seq<Option<File>>>

    constructor ()
      ensures values == map[] && files == map[]
    {
      values := map[];
      files := map[];
    }

    /**
     * ParseFormData: `data` is what io.ReadAll gave. A read failure is a 500,
     * a query that does not parse a 400; only success replaces the values.
     */
    method ParseFormData(data: Result<seq<byte>, string>, parseQuery: QueryParser)
      returns (err: Option<Error>)
      modifies this`values
      ensures data.Err? ==> err == Some(Error(StatusInternalServerError, data.error)) && values == old(values)
      ensures data.Ok? && parseQuery(data.value).Err? ==>
        err == Some(Error(StatusBadRequest, parseQuery(data.value).error)) && values == old(values)
      ensures data.Ok? && parseQuery(data.value).Ok? ==> err == None && values == parseQuery(data.value).value
    {
      if data.Err? {
        return Some(Error(StatusInternalServerError, data.error));
      }
      var parsed := parseQuery(data.value);
      if parsed.Err? {
        return Some(Error(StatusBadRequest, parsed.error));
      }
      values := parsed.value;
      return None;
    }

    /**
     * ParseMultipartFormData: reads the form, takes its plain fields, then
     * opens every file part, key by key in the map's (unspecified) order.
     */
    method ParseMultipartFormData(input: seq<byte>, boundary: string, readForm: FormReader, open: Opener)
      returns (err: Option<Error>)
      modifies this`values, this`files
      ensures var form := readForm(input, boundary, MaxMemory);
        && (form.Err? ==>
              && err == Some(Error(FormErrorCode(form.error), form.error.reason))
              && values == old(values) && files == old(files))
        && (form.Ok? ==> values == form.value.value && files.Keys <= form.value.file.Keys)
        && (form.Ok? ==> (err.None? <==> Opens(form.value.file, open)))
        && (form.Ok? && err.Some? ==> err.value.code == StatusInternalServerError)
        && (err.None? ==> files.Keys == form.value.file.Keys
                          && Aligned(files, form.value.file, files.Keys, open))
    {
      var form := readForm(input, boundary, MaxMemory);
      if form.Err? {
        return Some(Error(FormErrorCode(form.error), form.error.reason));
      }
      var parts := form.value.file;
      values := form.value.value;
      files := map[];
      var remaining := parts.Keys;
      while remaining != {}
        invariant values == form.value.value
        invariant remaining <= parts.Keys
        invariant files.Keys == parts.Keys - remaining
        invariant Aligned(files, parts, files.Keys, open)
        decreases remaining
      {
        var key :| key in remaining;
        var failure := OpenParts(key, parts[key], open);
        if failure.Some? {
          return Some(Error(StatusInternalServerError, failure.value));
        }
        remaining := remaining - {key};
      }
      return None;
    }

    /**
     * The inner loop of ParseMultipartFormData for one key: a slot per part,
     * filled in order with the opened file; the first failure stops it.
     */
    method OpenParts(key: string, headers: seq<FileHeader>, open: Opener) returns (failure: Option<string>)
      modifies this`files
      ensures files.Keys == old(files).Keys + {key}
      ensures forall k :: k in old(files) && k != key ==> files[k] == old(files)[k]
      ensures |files[key]| == |headers|
      ensures failure.None? <==> forall i :: 0 <= i < |headers| ==> open(headers[i]).Ok?
      ensures failure.None? ==> forall i :: 0 <= i < |headers| ==> files[key][i] == Some(open(headers[i]).value)
    {
      files := files[key := seq(|headers|, _ => None)];
      var fdx := 0;
      while fdx < |headers|
        invariant 0 <= fdx <= |headers|
        invariant files.Keys == old(files).Keys + {key}
        invariant forall k :: k in old(files) && k != key ==> files[k] == old(files)[k]
        invariant |files[key]| == |headers|
        invariant forall i :: 0 <= i < fdx ==> open(headers[i]).Ok? && files[key][i] == Some(open(headers[i]).value)
      {
        var file := open(headers[fdx]);
        if file.Err? {
          return Some(file.error);
        }
        files := files[key := files[key][fdx := Some(file.value)]];
        fdx := fdx + 1;
      }
      return None;
    }
  }
}

=== FILE: request.dfy ===
/**
 * request.go: the Request a handler receives, its set-cookie helper, the two
 * size getters, and readBody, which decodes the request body by media type.
 */
module Request {
  import opened Wrappers
  import opened Http
  import opened Verbs
  import opened Capabilities
  import opened Errors

  /** What mime.ParseMediaType yields for a well-formed Content-Type. */
  datatype MediaType = MediaType(mediaType: string, params: map<string, string>)

  /** mime.ParseMediaType, taken as given. */
  type MediaTypeParser = string -> Result<MediaType, string>

  /** The request body as the server reads it: its bytes, and whether io.ReadAll fails on them. */
  datatype BodyStream = BodyStream(raw: seq<byte>, readFails: bool)

  type BytesParser = (Value, seq<byte>) -> Result<Value, Error>
  type MultipartParser = (Value, seq<byte>, string) -> Result<Value, Error>

  /**
   * What a body type offers the decoder: the parser interfaces it implements
   * (FormDataParser, MultipartFormDataParser, PlainTextParser), each mapping
   * the body value and the input to the parsed value, and json.Unmarshal into it.
   */
  datatype BodyCodec = BodyCodec(
    form: Option<BytesParser>,
    multipart: Option<MultipartParser>,
    text: Option<BytesParser>,
    json: (Value, seq<byte>) -> Result<Value, string>)

  const FormUrlEncoded: string := "application/x-www-form-urlencoded"
  const MultipartForm: string := "multipart/form-data"
  const ApplicationJson: string := "application/json"
  /** The decoders compare with the bare word "text", not with "text/plain". */
  const PlainText: string := "text"

  /** Why readBody gave up. */
  datatype BodyError =
    | BadContentType(reason: string)
    | ReadFailed
    | Rejected(e: Error)
    | BadJson(reason: string)
    | Unsupported(contentType: string)

  /** The media types whose case reads the whole body before parsing it. */
  predicate ReadsWholeBody(mediaType: string) {
    mediaType == FormUrlEncoded || mediaType == ApplicationJson || mediaType == PlainText
  }

  predicate IsDecodable(mediaType: string) {
    ReadsWholeBody(mediaType) || mediaType == MultipartForm
  }

  function Boundary(m: MediaType): string {
    if "boundary" in m.params then m.params["boundary"] else ""
  }

  /** A parser interface the body type may not implement: without it the body stays as it is. */
  function RunParser(p: Option<BytesParser>, body: Value, data: seq<byte>): Result<Value, Error> {
    if p.None? then Ok(body) else p.value(body, data)
  }

  /**
   * What readBody decides: `result` is Ok(None) when nothing is assigned,
   * Ok(Some(v)) when Body becomes v, or the error; `sized` tells whether
   * bodySize is set to the length of the body.
   */
  datatype Decoded = Decoded(result: Result<Option<Value>, BodyError>, sized: bool)

  function DecodeBody(codec: BodyCodec, start: Value, stream: BodyStream, contentType: string,
                      parse: MediaTypeParser): Decoded
  {
    if stream.raw == [] then Decoded(Ok(None), false)
    else match parse(contentType)
      case Err(reason) => Decoded(Err(BadContentType(reason)), false)
      case Ok(m) => DecodeMedia(codec, start, stream, m, contentType)
  }

  /** The switch on the media type, for a non-empty body whose Content-Type parsed as `m`. */
  function DecodeMedia(codec: BodyCodec, start: Value, stream: BodyStream, m: MediaType, contentType: string): Decoded {
    if m.mediaType == MultipartForm then
      var r := if codec.multipart.None? then Ok(start) else codec.multipart.value(start, stream.raw, Boundary(m));
      Decoded(Parsed(r), false)
    else if !ReadsWholeBody(m.mediaType) then Decoded(Err(Unsupported(contentType)), false)
    else if stream.readFails then Decoded(Err(ReadFailed), false)
    else if m.mediaType == ApplicationJson then
      var r := codec.json(start, stream.raw);
      Decoded(if r.Ok? then Ok(Some(r.value)) else Err(BadJson(r.error)), true)
    else
      var r := RunParser(if m.mediaType == FormUrlEncoded then codec.form else codec.text, start, stream.raw);
      Decoded(Parsed(r), true)
  }

  /** A parser's answer as readBody passes it on: the value becomes Body, an error is returned as it is. */
  function Parsed(r: Result<Value, Error>): Result<Option<Value>, BodyError> {
    if r.Ok? then Ok(Some(r.value)) else Err(Rejected(r.error))
  }

  /** What readBody does with each kind of body. */
  lemma DecodeBodyOutcomes(codec: BodyCodec, start: Value, stream: BodyStream, contentType: string,
                           parse: MediaTypeParser)
    ensures var d := DecodeBody(codec, start, stream, contentType, parse);
      // an empty body is no body: nothing is assigned and no error is returned
      && (stream.raw == [] ==> d == Decoded(Ok(None), false))
      // a non-empty body is either decoded and assigned, or the call fails
      && (stream.raw != [] ==> d.result.Err? || d.result.value.Some?)
      // an unparsable Content-Type fails before anything is read or set
      && (stream.raw != [] && parse(contentType).Err? ==>
            d == Decoded(Err(BadContentType(parse(contentType).error)), false))
      // a media type without a case fails, naming the header, and nothing is set
      && (stream.raw != [] && parse(contentType).Ok? && !IsDecodable(parse(contentType).value.mediaType) ==>
            d == Decoded(Err(Unsupported(contentType)), false))
      // the size is recorded exactly when a whole-body case has read the body
      && (d.sized <==> (stream.raw != [] && parse(contentType).Ok? && !stream.readFails
                        && ReadsWholeBody(parse(contentType).value.mediaType)))
      // JSON is always unmarshalled, and its failure leaves Body unassigned
      && (stream.raw != [] && parse(contentType).Ok? && parse(contentType).value.mediaType == ApplicationJson
            && !stream.readFails ==>
            d.result == (if codec.json(start, stream.raw).Ok? then Ok(Some(codec.json(start, stream.raw).value))
                         else Err(BadJson(codec.json(start, stream.raw).error))))
      // a body type without the parser interface decodes to itself
      && (stream.raw != [] && parse(contentType).Ok? &&
            ((parse(contentType).value.mediaType == MultipartForm && codec.multipart.None?)
             || (!stream.readFails &&
                 ((parse(contentType).value.mediaType == FormUrlEncoded && codec.form.None?)
                  || (parse(contentType).value.mediaType == PlainText && codec.text.None?)))) ==>
            d.result == Ok(Some(start)))
      // a Rejected error comes only from a parser
      && (d.result.Err? && d.result.error.Rejected? ==>
            stream.raw != [] && parse(contentType).Ok? && IsDecodable(parse(contentType).value.mediaType)
            && parse(contentType).value.mediaType != ApplicationJson)
  {
  }

  /**
   * The body types with a parser: the parser's value becomes Body and its
   * error is returned as it is; a whole-body case whose read fails returns
   * the read error first.
   */
  lemma DecodeBodyParsers(codec: BodyCodec, start: Value, stream: BodyStream, contentType: string,
                          parse: MediaTypeParser)
    ensures var d := DecodeBody(codec, start, stream, contentType, parse);
      var ok := stream.raw != [] && parse(contentType).Ok?;
      && (ok && ReadsWholeBody(parse(contentType).value.mediaType) && stream.readFails ==>
            d == Decoded(Err(ReadFailed), false))
      && (ok && parse(contentType).value.mediaType == FormUrlEncoded && !stream.readFails && codec.form.Some? ==>
            d == Decoded(Parsed(codec.form.value(start, stream.raw)), true))
      && (ok && parse(contentType).value.mediaType == PlainText && !stream.readFails && codec.text.Some? ==>
            d == Decoded(Parsed(codec.text.value(start, stream.raw)), true))
      && (ok && parse(contentType).value.mediaType == MultipartForm && codec.multipart.Some? ==>
            d == Decoded(Parsed(codec.multipart.value(start, stream.raw, Boundary(parse(contentType).value))), false))
  {
  }

  /** What a middleware or a handler can see of a request. */
  datatype RequestView = RequestView(verb: Verb, path: string, headers: Header, cookies: seq<Cookie>,
                                     body: Option<Value>, session: Option<Value>)

  /** The Request a handler receives. Go values held as interface{} are Values. */
  class Request {
    var verb: Verb
    const path: string
    const headers: Header
    const cookies: seq<Cookie>
    var body: Option<Value>
    var session: Option<Value>
    /** The response writer's header map, shared with the writer. */
    const responseHeaders: HeaderMap
    var bodySize: nat
    var responseSize: nat

    constructor (path: string, headers: Header, cookies: seq<Cookie>, responseHeaders: HeaderMap)
      ensures this.path == path && this.headers == headers && this.cookies == cookies
      ensures this.responseHeaders == responseHeaders
      ensures verb == 0 && body == None && session == None && bodySize == 0 && responseSize == 0
    {
      this.path := path;
      this.headers := headers;
      this.cookies := cookies;
      this.responseHeaders := responseHeaders;
      verb := 0;
      body := None;
      session := None;
      bodySize := 0;
      responseSize := 0;
    }

    function View(): RequestView
      reads this
    {
      RequestView(verb, path, headers, cookies, body, session)
    }

    /** Replaces the set-cookie field of the response with this one cookie. */
    method SetCookie(c: Cookie)
      modifies responseHeaders
      ensures responseHeaders.fields == SetField(old(responseHeaders.fields), "set-cookie", CookieString(c))
      ensures Values(responseHeaders.fields, "set-cookie") == [CookieString(c)]
    {
      responseHeaders.Set("set-cookie", CookieString(c));
    }

    /** The number of body bytes the decoder read; zero until it records one. */
    function BodySize(): nat
      reads this
    {
      bodySize
    }

    /** The number of content bytes written for the response. */
    function ResponseSize(): nat
      reads this
    {
      responseSize
    }

    /**
     * readBody: decodes the body with the codec of the body type, starting from
     * the value `start` the caller passes in.
     */
    method ReadBody(codec: BodyCodec, start: Value, stream: BodyStream, parse: MediaTypeParser)
      returns (err: Option<BodyError>)
      modifies this`bodySize, this`body
      ensures var d := DecodeBody(codec, start, stream, Get(headers, "Content-Type"), parse);
        && err == (if d.result.Err? then Some(d.result.error) else None)
        && BodySize() == (if d.sized then |stream.raw| else old(BodySize()))
        && body == (if d.result.Ok? && d.result.value.Some? then d.result.value else old(body))
    {
      if stream.raw == [] {
        // Peek(1) fails: there is no body
        return None;
      }
      var contentType := Get(headers, "Content-Type");
      var parsed := parse(contentType);
      if parsed.Err? {
        return Some(BadContentType(parsed.error));
      }
      err := ReadMedia(codec, start, stream, parsed.value, contentType);
    }

    /** The switch of readBody on the media type, once the Content-Type has parsed. */
    method ReadMedia(codec: BodyCodec, start: Value, stream: BodyStream, m: MediaType, contentType: string)
      returns (err: Option<BodyError>)
      modifies this`bodySize, this`body
      ensures var d := DecodeMedia(codec, start, stream, m, contentType);
        && err == (if d.result.Err? then Some(d.result.error) else None)
        && BodySize() == (if d.sized then |stream.raw| else old(BodySize()))
        && body == (if d.result.Ok? && d.result.value.Some? then d.result.value else old(body))
    {
      var mediaType := m.mediaType;
      var decoded := start;
      if mediaType == FormUrlEncoded {
        if stream.readFails {
          return Some(ReadFailed);
        }
        bodySize := |stream.raw|;
        if codec.form.Some? {
          var r := codec.form.value(decoded, stream.raw);
          if r.Err? {
            return Some(Rejected(r.error));
          }
          decoded := r.value;
        }
      } else if mediaType == MultipartForm {
        if codec.multipart.Some? {
          var r := codec.multipart.value(decoded, stream.raw, Boundary(m));
          if r.Err? {
            return Some(Rejected(r.error));
          }
          decoded := r.value;
        }
      } else if mediaType == ApplicationJson {
        if stream.readFails {
          return Some(ReadFailed);
        }
        bodySize := |stream.raw|;
        var r := codec.json(decoded, stream.raw);
        if r.Err? {
          return Some(BadJson(r.error));
        }
        decoded := r.value;
      } else if mediaType == PlainText {
        if stream.readFails {
          return Some(ReadFailed);
        }
        bodySize := |stream.raw|;
        if codec.text.Some? {
          var r := codec.text.value(decoded, stream.raw);
          if r.Err? {
            return Some(Rejected(r.error));
          }
          decoded := r.value;
        }
      } else {
        return Some(Unsupported(contentType));
      }
      body := Some(decoded);
      return None;
    }
  }
}

=== FILE: route.dfy ===
/**
 * route.go: a Route, the handlers registered for one path, and its setters.
 * Middlewares and handlers are functions of what they see of the request.
 */
module Routes {
  import opened Wrappers
  import opened Verbs
  import opened Capabilities
  import opened Request

  /**
   * What a middleware leaves behind: nil, or the error that stops the
   * request; and the session data the request holds after it ran, which it
   * may have changed through its pointer or replaced (None is nil).
   */
  datatype Step = Step(err: Option<string>, session: Option<Value>)

  type Middleware = RequestView -> Step

  /**
   * What a handler leaves behind: the response value, or the error that
   * makes the answer a 400; and the session data the request then holds.
   */
  datatype Answer = Answer(response: Result<Value, string>, session: Option<Value>)

  type Handler = RequestView -> Answer

  /** The websocket and event-stream handlers are kept but never called. */
  datatype WebsocketHandler = WebsocketHandler(name: string)
  datatype EventStreamHandler = EventStreamHandler(name: string)

  class Route {
    var path: string
    var middlewares: seq<Middleware>
    var websocket: Option<WebsocketHandler>
    var eventStream: Option<EventStreamHandler>
    var handlers: map<Verb, Handler>

    constructor (path: string, handlers: map<Verb, Handler>)
      ensures this.path == path && this.handlers == handlers
      ensures middlewares == [] && websocket == None && eventStream == None
    {
      this.path := path;
      this.handlers := handlers;
      middlewares := [];
      websocket := None;
      eventStream := None;
    }

    /** Adds a middleware after those already there. */
    method Middleware(mw: Middleware)
      modifies this
      ensures middlewares == old(middlewares) + [mw]
      ensures |middlewares| == |old(middlewares)| + 1 && middlewares[..|old(middlewares)|] == old(middlewares)
      ensures path == old(path) && handlers == old(handlers)
      ensures websocket == old(websocket) && eventStream == old(eventStream)
    {
      middlewares := middlewares + [mw];
    }

    /** Sets the websocket handler; nil clears it. */
    method Websocket(handler: Option<WebsocketHandler>)
      modifies this
      ensures websocket == handler
      ensures path == old(path) && handlers == old(handlers)
      ensures middlewares == old(middlewares) && eventStream == old(eventStream)
    {
      websocket := handler;
    }

    /** Sets the event-stream handler; nil clears it. */
    method EventStream(handler: Option<EventStreamHandler>)
      modifies this
      ensures eventStream == handler
      ensures path == old(path) && handlers == old(handlers)
      ensures middlewares == old(middlewares) && websocket == old(websocket)
    {
      eventStream := handler;
    }
  }
}

=== FILE: server.dfy ===
/**
 * server.go: the Server (its session store, middlewares and registry of
 * content-type capabilities), ApplyRoute, and the request-dispatch closure
 * that ApplyRoute registers for a path.
 */
module Server {
  import opened Wrappers
  import opened Http
  import opened Verbs
  import opened Capabilities
  import opened Negotiation
  import opened Request
  import opened Routes
  import opened Sessions

  // ------------------------------------------------------------- registry

  const NotInterface: string := "type of i is not an interface."
  const NotSingleMethod: string := "interface must implement a single method with no arguments returning []byte"

  /** reflect.TypeOf(i), with one pointer level taken off as the source does. */
  function Unwrap(i: TypeDesc): TypeDesc {
    if i.Pointer? then i.elem else i
  }

  /**
   * What RegisterContentTypeInterface does with `i`: the capability it
   * registers, or the message it panics with.
   */
  function Registration(i: TypeDesc): (r: Result<Capability, string>)
    ensures r.Ok? <==> IsCapability(Unwrap(i))
    ensures r.Ok? ==> r.value == Unwrap(i)
    ensures r.Err? ==> r.error == if Unwrap(i).Interface? then NotSingleMethod else NotInterface
  {
    var t := Unwrap(i);
    if !t.Interface? then Err(NotInterface)
    else if |t.methods| != 1 then Err(NotSingleMethod)
    else if t.methods[0].params != [] || t.methods[0].results != [ByteSlice] then Err(NotSingleMethod)
    else Ok(t)
  }

  /**
   * The `implements` loop of ApplyRoute and ApplyErrorHandler: for every
   * registered token, whether the response type satisfies its capability.
   */
  method ComputeImplements(registry: Registry, t: ResponseType) returns (implements: map<string, bool>)
    ensures implements.Keys == registry.Keys
    ensures forall k :: k in registry ==> implements[k] == Implements(t, registry[k])
  {
    implements := map[];
    var remaining := registry.Keys;
    while remaining != {}
      invariant remaining <= registry.Keys
      invariant implements.Keys == registry.Keys - remaining
      invariant forall k :: k in implements ==> implements[k] == Implements(t, registry[k])
      decreases remaining
    {
      var k :| k in remaining;
      implements := implements[k := Implements(t, registry[k])];
      remaining := remaining - {k};
    }
  }

  // ----------------------------------------------------------- middlewares

  /**
   * The session data the middleware at index j sees: the loaded data, as
   * each middleware before it left it.
   */
  function SessionAt(mws: seq<Middleware>, view: RequestView, j: nat): Option<Value>
    requires j <= |mws|
  {
    if j == 0 then view.session
    else mws[j - 1](view.(session := SessionAt(mws, view, j - 1))).session
  }

  /** What the middleware at index j answers, seeing the request as those before it left it. */
  function StepAt(mws: seq<Middleware>, view: RequestView, j: nat): Step
    requires j < |mws|
  {
    mws[j](view.(session := SessionAt(mws, view, j)))
  }

  /** The first middleware from index i on that returns an error. */
  function FailureFrom(mws: seq<Middleware>, view: RequestView, i: nat): (r: Option<nat>)
    requires i <= |mws|
    ensures r.Some? ==> i <= r.value < |mws| && StepAt(mws, view, r.value).err.Some?
                        && forall j :: i <= j < r.value ==> StepAt(mws, view, j).err.None?
    ensures r.None? ==> forall j :: i <= j < |mws| ==> StepAt(mws, view, j).err.None?
    decreases |mws| - i
  {
    if i == |mws| then None
    else if StepAt(mws, view, i).err.Some? then Some(i)
    else FailureFrom(mws, view, i + 1)
  }

  /** The index of the first middleware that returns an error, if any: all before it pass. */
  function FirstFailure(mws: seq<Middleware>, view: RequestView): Option<nat> {
    FailureFrom(mws, view, 0)
  }

  /** The session data once the middlewares have run, up to and including the first that fails. */
  function SessionAfter(mws: seq<Middleware>, view: RequestView): Option<Value> {
    var f := FirstFailure(mws, view);
    SessionAt(mws, view, if f.Some? then f.value + 1 else |mws|)
  }

  /** The request as the handler sees it, once every middleware has passed. */
  function Seen(mws: seq<Middleware>, view: RequestView): RequestView {
    view.(session := SessionAt(mws, view, |mws|))
  }

  /** Within the first list, the joined list carries the session as the first list does. */
  lemma {:induction false} SessionAtLeft(a: seq<Middleware>, b: seq<Middleware>, view: RequestView, j: nat)
    requires j <= |a|
    ensures SessionAt(a + b, view, j) == SessionAt(a, view, j)
  {
    if j > 0 {
      SessionAtLeft(a, b, view, j - 1);
      assert (a + b)[j - 1] == a[j - 1];
    }
  }

  /** Within the second list, the joined list carries the session as the second list does from where the first left it. */
  lemma {:induction false} SessionAtRight(a: seq<Middleware>, b: seq<Middleware>, view: RequestView, k: nat)
    requires k <= |b|
    ensures SessionAt(a + b, view, |a| + k) == SessionAt(b, Seen(a, view), k)
  {
    if k == 0 {
      SessionAtLeft(a, b, view, |a|);
    } else {
      SessionAtRight(a, b, view, k - 1);
      assert (a + b)[|a| + k - 1] == b[k - 1];
    }
  }

  /** From index |a| + k on, the joined list fails where the second list fails from k on, shifted by |a|. */
  lemma {:induction false} FailureFromRight(a: seq<Middleware>, b: seq<Middleware>, view: RequestView, k: nat)
    requires k <= |b|
    ensures var r := FailureFrom(b, Seen(a, view), k);
      FailureFrom(a + b, view, |a| + k) == if r.Some? then Some(|a| + r.value) else None
    decreases |b| - k
  {
    if k < |b| {
      SessionAtRight(a, b, view, k);
      assert (a + b)[|a| + k] == b[k];
      assert StepAt(a + b, view, |a| + k) == StepAt(b, Seen(a, view), k);
      FailureFromRight(a, b, view, k + 1);
    }
  }

  /** From index i within the first list on, the joined list fails in the first list or else in the second. */
  lemma {:induction false} FailureFromLeft(a: seq<Middleware>, b: seq<Middleware>, view: RequestView, i: nat)
    requires i <= |a|
    ensures var r := FailureFrom(b, Seen(a, view), 0);
      FailureFrom(a + b, view, i) ==
        if FailureFrom(a, view, i).Some? then FailureFrom(a, view, i)
        else if r.Some? then Some(|a| + r.value)
        else None
    decreases |a| - i
  {
    if i == |a| {
      FailureFromRight(a, b, view, 0);
    } else {
      SessionAtLeft(a, b, view, i);
      assert (a + b)[i] == a[i];
      assert StepAt(a + b, view, i) == StepAt(a, view, i);
      FailureFromLeft(a, b, view, i + 1);
    }
  }

  /**
   * The server's middlewares then the route's run as one list: the first
   * failure in either stops both, the route's see the session as the
   * server's left it, and the session afterwards is the one list's.
   */
  lemma FirstFailureAppend(a: seq<Middleware>, b: seq<Middleware>, view: RequestView)
    ensures var fa := FirstFailure(a, view);
      var fb := FirstFailure(b, Seen(a, view));
      FirstFailure(a + b, view) ==
        if fa.Some? then fa else if fb.Some? then Some(|a| + fb.value) else None
    ensures SessionAfter(a + b, view) ==
      if FirstFailure(a, view).Some? then SessionAfter(a, view) else SessionAfter(b, Seen(a, view))
  {
    FailureFromLeft(a, b, view, 0);
    var fa := FirstFailure(a, view);
    if fa.Some? {
      SessionAtLeft(a, b, view, fa.value + 1);
    } else {
      var fb := FirstFailure(b, Seen(a, view));
      SessionAtRight(a, b, view, if fb.Some? then fb.value + 1 else |b|);
    }
  }

  /**
   * The middleware loop: calls each in order on the request, which it may
   * change, and stops at the first error.
   */
  method RunMiddlewares(req: Request, mws: seq<Middleware>) returns (failedAt: Option<nat>)
    modifies req`session
    ensures failedAt == FirstFailure(mws, old(req.View()))
    ensures req.session == SessionAfter(mws, old(req.View()))
  {
    ghost var view := req.View();
    var i := 0;
    while i < |mws|
      invariant 0 <= i <= |mws|
      invariant req.View() == view.(session := SessionAt(mws, view, i))
      invariant FailureFrom(mws, view, 0) == FailureFrom(mws, view, i)
    {
      var step := mws[i](req.View());
      req.session := step.session;
      if step.err.Some? {
        return Some(i);
      }
      i := i + 1;
    }
    return None;
  }

  // ----------------------------------------------------------- negotiation

  /**
   * One pass of the Accept loop: the entry, then the piece after '/', then,
   * for "*", the piece before it. The source indexes the second piece without
   * checking that there is one; here an entry without '/' stops after the
   * first attempt.
   */
  method MatchEntry(reg: Registry, implements: map<string, bool>, entry: string) returns (c: Option<Capability>)
    ensures c == EntryMatch(reg, implements, entry)
  {
    c := Attempt(reg, implements, entry);
    if c.None? {
      var parts := Split(entry, '/');
      if |parts| >= 2 {
        c := Attempt(reg, implements, parts[1]);
        if c.None? && parts[1] == "*" {
          c := Attempt(reg, implements, parts[0]);
        }
      }
    }
  }

  /** The Accept loop of the dispatcher, in its total form. */
  method NegotiateLoop(reg: Registry, implements: map<string, bool>, accept: string) returns (c: Option<Capability>)
    ensures c == Negotiate(reg, implements, accept)
  {
    var entries := Split(Split(accept, ';')[0], ',');
    var i := 0;
    c := None;
    while i < |entries|
      invariant 0 <= i <= |entries|
      invariant c == None
      invariant FirstMatch(reg, implements, entries) == FirstMatch(reg, implements, entries[i..])
    {
      var entry := entries[i];
      c := MatchEntry(reg, implements, entry);
      assert entries[i..][0] == entry && entries[i..][1..] == entries[i + 1..];
      if c.Some? {
        return;
      }
      i := i + 1;
    }
  }

  /**
   * The switch on one trimmed Accept-Encoding entry: a compressor's name adds
   * its Content-Encoding; "identity" and anything else add nothing.
   */
  method SwitchEncoding(h: HeaderMap, entry: string) returns (enc: Option<Encoding>)
    modifies h
    ensures enc == EntryEncoding(entry)
    ensures h.fields == if enc.Some? then AddField(old(h.fields), "Content-Encoding", EncodingToken(enc.value))
                        else old(h.fields)
  {
    var token := TrimSpace(entry);
    if token == "gzip" {
      h.Add("Content-Encoding", "gzip");
      enc := Some(Gzip);
    } else if token == "deflate" {
      h.Add("Content-Encoding", "deflate");
      enc := Some(Deflate);
    } else if token == "br" {
      h.Add("Content-Encoding", "br");
      enc := Some(Brotli);
    } else {
      // "identity" ends only the switch, not the loop
      enc := None;
    }
  }

  /** One step of the Accept-Encoding loop: entry i decides, or the rest of the list does. */
  lemma ChooseFromAt(entries: seq<string>, i: nat)
    requires i < |entries|
    ensures ChooseFrom(entries[i..]) ==
      if EntryEncoding(entries[i]).Some? then EntryEncoding(entries[i]) else ChooseFrom(entries[i + 1..])
  {
    assert entries[i..][0] == entries[i] && entries[i..][1..] == entries[i + 1..];
  }

  /** The Accept-Encoding loop: the first compressor named is used, and the loop ends. */
  method EncodingLoop(h: HeaderMap, acceptEncoding: string) returns (enc: Option<Encoding>)
    modifies h
    ensures enc == ChooseEncoding(acceptEncoding)
    ensures h.fields == if enc.Some? then AddField(old(h.fields), "Content-Encoding", EncodingToken(enc.value))
                        else old(h.fields)
  {
    var encodings := Split(acceptEncoding, ',');
    var i := 0;
    enc := None;
    while i < |encodings|
      invariant 0 <= i <= |encodings|
      invariant ChooseFrom(encodings) == ChooseFrom(encodings[i..])
      invariant enc == None && h.fields == old(h.fields)
    {
      ChooseFromAt(encodings, i);
      enc := SwitchEncoding(h, encodings[i]);
      if enc.Some? {
        break;
      }
      i := i + 1;
    }
  }

  // ------------------------------------------------------------ body stage

  /** The status the dispatcher answers a failed decoding with, for a failure readBody also has. */
  function StatusFor(e: BodyError): nat {
    if e.ReadFailed? then StatusInternalServerError else StatusBadRequest
  }

  /**
   * The body decoding inlined in the dispatch closure: Ok(None) for no body,
   * Ok(Some(v)) for the body the request is given, or the status to answer.
   * Unlike readBody it records no size, keeps an unknown media type's zero
   * body, and answers every parser rejection with 400 whatever its code.
   */
  function InlineDecode(codec: BodyCodec, start: Value, stream: BodyStream, contentType: string,
                        parse: MediaTypeParser): Result<Option<Value>, nat>
  {
    if stream.raw == [] then Ok(None)
    else match parse(contentType)
      case Err(_) => Err(StatusBadRequest)
      case Ok(m) => InlineMedia(codec, start, stream, m)
  }

  /** The inline switch on the media type, for a non-empty body whose Content-Type parsed as `m`. */
  function InlineMedia(codec: BodyCodec, start: Value, stream: BodyStream, m: MediaType): Result<Option<Value>, nat> {
    if m.mediaType == MultipartForm then
      var r := if codec.multipart.None? then Ok(start) else codec.multipart.value(start, stream.raw, Boundary(m));
      if r.Ok? then Ok(Some(r.value)) else Err(StatusBadRequest)
    else if !ReadsWholeBody(m.mediaType) then Ok(Some(start))
    else if stream.readFails then Err(StatusInternalServerError)
    else if m.mediaType == ApplicationJson then
      var r := codec.json(start, stream.raw);
      if r.Ok? then Ok(Some(r.value)) else Err(StatusBadRequest)
    else
      var r := RunParser(if m.mediaType == FormUrlEncoded then codec.form else codec.text, start, stream.raw);
      if r.Ok? then Ok(Some(r.value)) else Err(StatusBadRequest)
  }

  /**
   * The inline decoder's answers: no body for an empty stream, a body for
   * any other it accepts, 400 or (when reading fails) 500 for what it
   * rejects, and the zero body for a media type it does not decode.
   */
  lemma InlineDecodeOutcomes(codec: BodyCodec, start: Value, stream: BodyStream, contentType: string,
                             parse: MediaTypeParser)
    ensures var r := InlineDecode(codec, start, stream, contentType, parse);
      && (stream.raw == [] ==> r == Ok(None))
      && (stream.raw != [] ==> r.Err? || r.value.Some?)
      && (r.Err? ==> r.error == StatusBadRequest || (r.error == StatusInternalServerError && stream.readFails))
      && (stream.raw != [] && parse(contentType).Ok? && !IsDecodable(parse(contentType).value.mediaType) ==>
            r == Ok(Some(start)))
  {
  }

  /**
   * The inline decoder and readBody agree on every body both accept; an
   * unsupported media type is an error only for readBody; every other failure
   * of readBody is a failure of the inline decoder too.
   */
  lemma InlineAgreesWithReadBody(codec: BodyCodec, start: Value, stream: BodyStream, contentType: string,
                                 parse: MediaTypeParser)
    ensures var d := DecodeBody(codec, start, stream, contentType, parse).result;
      var r := InlineDecode(codec, start, stream, contentType, parse);
      && (d.Ok? ==> r == Ok(d.value))
      && (d.Err? && d.error.Unsupported? ==> r == Ok(Some(start)))
      && (d.Err? && !d.error.Unsupported? ==> r == Err(StatusFor(d.error)))
  {
  }

  /** The decoding step of the dispatcher, server.go's own copy of readBody. */
  method DecodeInline(req: Request, codec: BodyCodec, start: Value, stream: BodyStream, parse: MediaTypeParser)
    returns (status: Option<nat>)
    modifies req`body
    ensures var r := InlineDecode(codec, start, stream, Get(req.headers, "Content-Type"), parse);
      && status == (if r.Err? then Some(r.error) else None)
      && req.body == (if r.Ok? && r.value.Some? then r.value else old(req.body))
  {
    if stream.raw == [] {
      return None;
    }
    var parsed := parse(Get(req.headers, "Content-Type"));
    if parsed.Err? {
      return Some(StatusBadRequest);
    }
    status := InlineMediaStep(req, codec, start, stream, parsed.value);
  }

  /** The inline switch of the dispatch closure, once the Content-Type has parsed. */
  method InlineMediaStep(req: Request, codec: BodyCodec, start: Value, stream: BodyStream, m: MediaType)
    returns (status: Option<nat>)
    modifies req`body
    ensures var r := InlineMedia(codec, start, stream, m);
      && status == (if r.Err? then Some(r.error) else None)
      && req.body == (if r.Ok? && r.value.Some? then r.value else old(req.body))
  {
    var mediaType := m.mediaType;
    var decoded := start;
    if mediaType == FormUrlEncoded {
      if stream.readFails {
        return Some(StatusInternalServerError);
      }
      if codec.form.Some? {
        var r := codec.form.value(decoded, stream.raw);
        if r.Err? {
          return Some(StatusBadRequest);
        }
        decoded := r.value;
      }
    } else if mediaType == MultipartForm {
      if codec.multipart.Some? {
        var r := codec.multipart.value(decoded, stream.raw, Boundary(m));
        if r.Err? {
          return Some(StatusBadRequest);
        }
        decoded := r.value;
      }
    } else if mediaType == ApplicationJson {
      if stream.readFails {
        return Some(StatusInternalServerError);
      }
      var r := codec.json(decoded, stream.raw);
      if r.Err? {
        return Some(StatusBadRequest);
      }
      decoded := r.value;
    } else if mediaType == PlainText {
      if stream.readFails {
        return Some(StatusInternalServerError);
      }
      if codec.text.Some? {
        var r := codec.text.value(decoded, stream.raw);
        if r.Err? {
          return Some(StatusBadRequest);
        }
        decoded := r.value;
      }
    }
    // any other media type is only logged
    req.body := Some(decoded);
    return None;
  }

  // ---------------------------------------------------------------- server

  class Server {
    const sessionStore: SessionStore
    var middlewares: seq<Middleware>
    var registry: Registry

    /** New: no middlewares, and the html, csv and json capabilities registered. */
    constructor New(sessionStore: SessionStore)
      ensures this.sessionStore == sessionStore && middlewares == []
      ensures registry == map["html" := Htmler, "csv" := Csver, "json" := Jsoner]
    {
      this.sessionStore := sessionStore;
      middlewares := [];
      registry := map[];
      new;
      var panic := RegisterContentTypeInterface("html", Pointer(Htmler));
      panic := RegisterContentTypeInterface("csv", Pointer(Csver));
      panic := RegisterContentTypeInterface("json", Pointer(Jsoner));
    }

    /**
     * Registers the capability that answers a content-type token, replacing any
     * earlier one; a value that is not such a capability panics instead, and
     * the registry stays as it was.
     */
    method RegisterContentTypeInterface(contentType: string, i: TypeDesc) returns (panic: Option<string>)
      modifies this`registry
      ensures var r := Registration(i);
        && panic == (if r.Ok? then None else Some(r.error))
        && registry == (if r.Ok? then old(registry)[contentType := r.value] else old(registry))
    {
      var reflection := i;
      if reflection.Pointer? {
        reflection := reflection.elem;
      }
      if !reflection.Interface? {
        return Some(NotInterface);
      }
      if |reflection.methods| != 1 {
        return Some(NotSingleMethod);
      }
      var fn := reflection.methods[0];
      if |fn.params| != 0 || |fn.results| != 1 || fn.results[0] != ByteSlice {
        return Some(NotSingleMethod);
      }
      assert fn.results == [ByteSlice];
      registry := registry[contentType := reflection];
      return None;
    }

    /** Adds a middleware that runs on every request, after those already added. */
    method Middleware(mw: Middleware)
      modifies this`middlewares
      ensures middlewares == old(middlewares) + [mw]
    {
      middlewares := middlewares + [mw];
    }
  }

  // -------------------------------------------------------------- dispatch

  /** An incoming request, with its Cookie header already parsed. */
  datatype Incoming = Incoming(requestMethod: string, path: string, headers: Header, cookies: seq<Cookie>,
                               body: BodyStream)

  /**
   * What the dispatcher did: the status written, the response headers, the
   * content written, how many middlewares it called, whether it called the
   * handler, and the session data the request held at the end.
   */
  datatype Outcome = Outcome(status: nat, headers: Header, body: seq<byte>, middlewaresRun: nat, handled: bool,
                             session: Option<Value>)

  /**
   * Not a status: the closure panicked (the in-memory store's Save of nil
   * data), and net/http drops the connection without an answer.
   */
  const Aborted: nat := 0

  /** An answer with only a status line. */
  function Refused(status: nat, middlewaresRun: nat, handled: bool, session: Option<Value>): Outcome {
    Outcome(status, map[], [], middlewaresRun, handled, session)
  }

  /** The in-memory sessions after a request: a 200 has saved the data the request ended with. */
  function Stored(sessions: map<string, Value>, token: string, out: Outcome): map<string, Value> {
    if out.status == StatusOK && out.session.Some? then sessions[token := out.session.value] else sessions
  }

  /**
   * What the closure works with: the server's registry, the route's
   * implements map and handlers, the server's then the route's middlewares,
   * the body type's codec and zero value, and whether the session store's
   * Save panics on nil data, as the in-memory store's does.
   */
  datatype Setup = Setup(registry: Registry, implements: map<string, bool>, handlers: map<Verb, Handler>,
                         middlewares: seq<Middleware>, codec: BodyCodec, bodyZero: Value, saveRefusesNil: bool)

  /** The headers of a successful answer: the content encoding chosen, then the session cookie. */
  function SuccessHeaders(acceptEncoding: string, token: string): Header {
    var enc := ChooseEncoding(acceptEncoding);
    var h := if enc.Some? then AddField(map[], "Content-Encoding", EncodingToken(enc.value)) else map[];
    if token != "" then SetField(h, "set-cookie", CookieString(TokenCookieFor(token))) else h
  }

  /**
   * A successful response carries Content-Encoding exactly when a compressor
   * was chosen, and the session cookie exactly when there is a token.
   */
  lemma SuccessHeadersFields(acceptEncoding: string, token: string, other: string)
    requires CanonicalKey(other) != CanonicalKey("Content-Encoding") && CanonicalKey(other) != CanonicalKey("set-cookie")
    ensures var enc := ChooseEncoding(acceptEncoding);
      Values(SuccessHeaders(acceptEncoding, token), "Content-Encoding") ==
        if enc.Some? then [EncodingToken(enc.value)] else []
    ensures Values(SuccessHeaders(acceptEncoding, token), "set-cookie") ==
      if token != "" then [CookieString(TokenCookieFor(token))] else []
    ensures Values(SuccessHeaders(acceptEncoding, token), other) == []
  {
    assert CanonicalKey("Content-Encoding") != CanonicalKey("set-cookie") by {
      assert |CanonicalKey("Content-Encoding")| != |CanonicalKey("set-cookie")|;
    }
  }

  /** The request as the middlewares and the handler see it. */
  function ViewOf(verb: Verb, inc: Incoming, body: Option<Value>, session: Option<Value>): RequestView {
    RequestView(verb, inc.path, inc.headers, inc.cookies, body, session)
  }

  /**
   * The dispatch closure of ApplyRoute for one request, given the session
   * token and the data the session loaded.
   */
  function Respond(s: Setup, inc: Incoming, parse: MediaTypeParser, token: string, data: Option<Value>): Outcome {
    match Admission(s, inc, parse)
    case Stop(status) => Refused(status, 0, false, data)
    case Go(verb, chosen, body) =>
      RespondTail(s.middlewares, s.handlers[verb], chosen, ViewOf(verb, inc, body, data),
                  Get(inc.headers, "Accept-Encoding"), token, s.saveRefusesNil)
  }

  /** How the closure's checks before the middlewares end: with a status, or with what the rest works on. */
  datatype Admitted = Stop(status: nat) | Go(verb: Verb, chosen: Capability, body: Option<Value>)

  /**
   * The checks before the middlewares: the method, its handler, the
   * negotiation against Accept, and the inline decode of the body.
   */
  function Admission(s: Setup, inc: Incoming, parse: MediaTypeParser): (a: Admitted)
    ensures a.Go? ==>
              && a.verb in s.handlers
              && Negotiate(s.registry, s.implements, Get(inc.headers, "Accept")) == Some(a.chosen)
              && (inc.body.raw == [] ==> a.body.None?)
    ensures a.Stop? ==> a.status in {StatusNotImplemented, StatusMethodNotAllowed, StatusNotAcceptable,
                                     StatusBadRequest, StatusInternalServerError}
    ensures a.Stop? && a.status == StatusNotAcceptable <==>
      ParseVerb(inc.requestMethod).err.None? && ParseVerb(inc.requestMethod).verb in s.handlers
      && Negotiate(s.registry, s.implements, Get(inc.headers, "Accept")).None?
  {
    InlineDecodeOutcomes(s.codec, s.bodyZero, inc.body, Get(inc.headers, "Content-Type"), parse);
    var parsed := ParseVerb(inc.requestMethod);
    if parsed.err.Some? then Stop(StatusNotImplemented)
    else if parsed.verb !in s.handlers then Stop(StatusMethodNotAllowed)
    else
      match Negotiate(s.registry, s.implements, Get(inc.headers, "Accept"))
      case None => Stop(StatusNotAcceptable)
      case Some(chosen) =>
        match InlineDecode(s.codec, s.bodyZero, inc.body, Get(inc.headers, "Content-Type"), parse)
        case Err(status) => Stop(status)
        case Ok(body) => Go(parsed.verb, chosen, body)
  }

  /**
   * The part of the closure after the body is decoded: the middlewares and
   * the handler, each seeing the session as the ones before it left it; the
   * content in the negotiated form, the encoding, the save of the session the
   * request ends with, and the cookie.
   */
  function RespondTail(mws: seq<Middleware>, handler: Handler, chosen: Capability, view: RequestView,
                       acceptEncoding: string, token: string, saveRefusesNil: bool): Outcome
  {
    match FirstFailure(mws, view)
    case Some(i) => Refused(StatusTeapot, i + 1, false, SessionAt(mws, view, i + 1))
    case None =>
      var answer := handler(Seen(mws, view));
      if answer.response.Err? then Refused(StatusBadRequest, |mws|, true, answer.session)
      else if saveRefusesNil && answer.session.None? then Refused(Aborted, |mws|, true, None)
      else Outcome(StatusOK, SuccessHeaders(acceptEncoding, token), Deliver(answer.response.value, chosen), |mws|, true,
                   answer.session)
  }

  /**
   * After the body is decoded: 418 exactly when a middleware fails, counting
   * up to the failing one; the handler runs exactly when all pass, sees the
   * session they left, and its own session is the one the request ends
   * with; 400 exactly when it fails; no answer exactly when that session is
   * nil for a store that refuses nil; otherwise a 200 with the negotiated
   * content and the success headers.
   */
  lemma RespondTailOutcomes(mws: seq<Middleware>, handler: Handler, chosen: Capability, view: RequestView,
                            acceptEncoding: string, token: string, saveRefusesNil: bool)
    ensures var o := RespondTail(mws, handler, chosen, view, acceptEncoding, token, saveRefusesNil);
      var answer := handler(Seen(mws, view));
      && (o.status == StatusTeapot <==> FirstFailure(mws, view).Some?)
      && (o.status == StatusTeapot ==>
            o == Refused(StatusTeapot, FirstFailure(mws, view).value + 1, false, SessionAfter(mws, view)))
      && (o.handled <==> FirstFailure(mws, view).None?)
      && (o.handled ==> o.session == answer.session)
      && (o.status == StatusBadRequest <==> o.handled && answer.response.Err?)
      && (o.status == Aborted <==> o.handled && answer.response.Ok? && saveRefusesNil && answer.session.None?)
      && (o.status == StatusOK ==>
            o == Outcome(StatusOK, SuccessHeaders(acceptEncoding, token), Deliver(answer.response.value, chosen), |mws|,
                         true, answer.session))
  {
  }

  /**
   * The whole closure: an unknown method is 501 and a method without a
   * handler is 405, before anything runs; 406 exactly when nothing in Accept
   * is acceptable; a 418 only from a middleware, before the handler; the
   * handler runs after every middleware and gives 200, 400, or no answer when
   * a store that refuses nil is left nil data; only a 200 has headers or
   * content, and those are the success headers; a 200 with such a store ends
   * with session data to save.
   */
  lemma RespondOutcomes(s: Setup, inc: Incoming, parse: MediaTypeParser, token: string, data: Option<Value>)
    ensures var o := Respond(s, inc, parse, token, data);
      var parsed := ParseVerb(inc.requestMethod);
      && (parsed.err.Some? ==> o == Refused(StatusNotImplemented, 0, false, data))
      && (parsed.err.None? && parsed.verb !in s.handlers ==> o == Refused(StatusMethodNotAllowed, 0, false, data))
      && (o.status == StatusNotAcceptable <==>
            parsed.err.None? && parsed.verb in s.handlers && Negotiate(s.registry, s.implements, Get(inc.headers, "Accept")).None?)
      && (o.status == StatusTeapot ==> !o.handled && 1 <= o.middlewaresRun <= |s.middlewares|)
      && (o.middlewaresRun > 0 && !o.handled ==> o.status == StatusTeapot)
      && (o.handled ==> o.middlewaresRun == |s.middlewares|
                         && (o.status == StatusOK || o.status == StatusBadRequest || o.status == Aborted))
      && (o.status == StatusOK ==> o.handled && (s.saveRefusesNil ==> o.session.Some?))
      && (o.status == Aborted ==> o.handled && s.saveRefusesNil && o.session.None?)
      && (o.status != StatusOK ==> o.headers == map[] && o.body == [])
      && (o.status == StatusOK ==> o.headers == SuccessHeaders(Get(inc.headers, "Accept-Encoding"), token))
  {
    InlineDecodeOutcomes(s.codec, s.bodyZero, inc.body, Get(inc.headers, "Content-Type"), parse);
    match Admission(s, inc, parse)
    case Stop(_) =>
    case Go(verb, chosen, body) =>
      RespondTailOutcomes(s.middlewares, s.handlers[verb], chosen, ViewOf(verb, inc, body, data),
                          Get(inc.headers, "Accept-Encoding"), token, s.saveRefusesNil);
  }

  /** The data a session holds after load: what the store gave, or nil when it failed. */
  function Loaded(store: SessionStore, token: string): (d: Option<Value>)
    reads StoreFootprint(store)
    ensures store.InMemory? ==> d.Some?
  {
    var r := StoreGet(store, token);
    if r.Ok? then r.value else None
  }

  /** The closure ApplyRoute registers: what it captured when the route was applied. */
  class Endpoint {
    const server: Server
    const route: Route
    const implements: map<string, bool>
    const handlers: map<Verb, Handler>
    const codec: BodyCodec
    const bodyZero: Value

    constructor (server: Server, route: Route, implements: map<string, bool>, handlers: map<Verb, Handler>,
                 codec: BodyCodec, bodyZero: Value)
      ensures this.server == server && this.route == route && this.implements == implements
      ensures this.handlers == handlers && this.codec == codec && this.bodyZero == bodyZero
    {
      this.server := server;
      this.route := route;
      this.implements := implements;
      this.handlers := handlers;
      this.codec := codec;
      this.bodyZero := bodyZero;
    }

    /** The setup as of now: registry and middlewares are read when the request comes. */
    function Current(): Setup
      reads server, route
    {
      Setup(server.registry, implements, handlers, server.middlewares + route.middlewares, codec, bodyZero,
            server.sessionStore.InMemory?)
    }

    /**
     * Serves one request. `random` stands for the bytes a fresh session token
     * is made of; `parse` for mime.ParseMediaType. A successful request saves
     * its session: an in-memory store then holds the token, with the data the
     * middlewares and the handler left in the request.
     */
    method Serve(inc: Incoming, random: seq<byte>, parse: MediaTypeParser) returns (out: Outcome)
      requires |random| == 12
      modifies StoreFootprint(server.sessionStore)
      ensures var token := TokenFor(server.sessionStore, inc.headers, inc.cookies, random);
        out == Respond(old(Current()), inc, parse, token, old(Loaded(server.sessionStore, token)))
      ensures server.sessionStore.InMemory? ==>
        server.sessionStore.mem.sessions ==
          Stored(old(server.sessionStore.mem.sessions), TokenFor(server.sessionStore, inc.headers, inc.cookies, random), out)
    {
      ghost var setup := Current();
      ghost var token := TokenFor(server.sessionStore, inc.headers, inc.cookies, random);
      ghost var data := Loaded(server.sessionStore, token);
      var session := Open(inc, random);
      assert Current() == setup && session.token == token && session.data == data;
      out := Dispatch(session, inc, parse);
    }

    /**
     * The checks before the middlewares; when they pass, the request holds
     * the verb and the decoded body.
     */
    method Admit(req: Request, inc: Incoming, parse: MediaTypeParser) returns (a: Admitted)
      requires req.headers == inc.headers && req.body == None
      modifies req`verb, req`body
      ensures a == Admission(Current(), inc, parse)
      ensures a.Go? ==> req.verb == a.verb && req.body == a.body
      ensures a.Stop? ==> a.status in {StatusNotImplemented, StatusMethodNotAllowed, StatusNotAcceptable,
                                       StatusBadRequest, StatusInternalServerError}
    {
      var parsed := ParseVerb(inc.requestMethod);
      req.verb := parsed.verb;
      if parsed.err.Some? {
        return Stop(StatusNotImplemented);
      }
      if req.verb !in handlers {
        return Stop(StatusMethodNotAllowed);
      }
      var chosen := NegotiateLoop(server.registry, implements, Get(inc.headers, "Accept"));
      if chosen.None? {
        return Stop(StatusNotAcceptable);
      }
      InlineDecodeOutcomes(codec, bodyZero, inc.body, Get(inc.headers, "Content-Type"), parse);
      var status := DecodeInline(req, codec, bodyZero, inc.body, parse);
      if status.Some? {
        return Stop(status.value);
      }
      a := Go(req.verb, chosen.value, req.body);
    }

    /**
     * The closure for a request whose session is loaded: method, negotiation,
     * the inline decoding, then the middlewares and the handler.
     */
    method Dispatch(session: Session, inc: Incoming, parse: MediaTypeParser) returns (out: Outcome)
      requires session.store == server.sessionStore
      requires session.req.session == session.data && session.req.body == None
      requires session.req.path == inc.path && session.req.headers == inc.headers && session.req.cookies == inc.cookies
      requires session.req.responseHeaders.fields == map[]
      modifies StoreFootprint(session.store), session.req.responseHeaders, session.req`verb, session.req`body,
               session.req`session, session`data
      ensures out == old(Respond(Current(), inc, parse, session.token, session.data))
      ensures session.store.InMemory? ==>
        session.store.mem.sessions == Stored(old(session.store.mem.sessions), session.token, out)
    {
      var req := session.req;
      var a := Admit(req, inc, parse);
      if a.Stop? {
        return Refused(a.status, 0, false, req.session);
      }
      out := Finish(session, handlers[a.verb], a.chosen, Get(inc.headers, "Accept-Encoding"));
    }

    /**
     * The request and its session as the closure sets them up: a new
     * response header map, the token the store parses, and the data it loads
     * for that token (a load error is only logged and leaves the data nil).
     */
    method Open(inc: Incoming, random: seq<byte>) returns (session: Session)
      requires |random| == 12
      ensures fresh(session) && fresh(session.req) && fresh(session.req.responseHeaders)
      ensures session.store == server.sessionStore
      ensures session.token == TokenFor(server.sessionStore, inc.headers, inc.cookies, random)
      ensures session.data == Loaded(server.sessionStore, session.token)
      ensures session.req.session == session.data && session.req.body == None
      ensures session.req.path == inc.path && session.req.headers == inc.headers && session.req.cookies == inc.cookies
      ensures session.req.responseHeaders.fields == map[]
    {
      var responseHeaders := new HeaderMap(map[]);
      var req := new Request(inc.path, inc.headers, inc.cookies, responseHeaders);
      session := new Session(server.sessionStore, req);
      var loadErr := session.Load(random);
      req.session := session.data;
    }

    /**
     * The server's middlewares, then the route's, each list in order; the
     * first error stops both loops and is reported by its place in the
     * combined list.
     */
    method RunAllMiddlewares(req: Request) returns (failedAt: Option<nat>)
      modifies req`session
      ensures failedAt == FirstFailure(server.middlewares + route.middlewares, old(req.View()))
      ensures req.session == SessionAfter(server.middlewares + route.middlewares, old(req.View()))
    {
      ghost var view := req.View();
      FirstFailureAppend(server.middlewares, route.middlewares, view);
      failedAt := RunMiddlewares(req, server.middlewares);
      if failedAt.Some? {
        return;
      }
      assert req.View() == Seen(server.middlewares, view);
      failedAt := RunMiddlewares(req, route.middlewares);
      if failedAt.Some? {
        failedAt := Some(|server.middlewares| + failedAt.value);
      }
    }

    /**
     * The middlewares, the handler and, when it succeeds, the rest; each sees
     * and may change the request's session data.
     */
    method Finish(session: Session, handler: Handler, chosen: Capability, acceptEncoding: string)
      returns (out: Outcome)
      requires session.store == server.sessionStore
      requires session.req.responseHeaders.fields == map[]
      modifies StoreFootprint(session.store), session.req.responseHeaders, session.req`session, session`data
      ensures out == old(RespondTail(server.middlewares + route.middlewares, handler, chosen, session.req.View(),
                                     acceptEncoding, session.token, server.sessionStore.InMemory?))
      ensures session.store.InMemory? ==>
        session.store.mem.sessions == Stored(old(session.store.mem.sessions), session.token, out)
    {
      var req := session.req;
      var failedAt := RunAllMiddlewares(req);
      if failedAt.Some? {
        return Refused(StatusTeapot, failedAt.value + 1, false, req.session);
      }
      var answer := handler(req.View());
      req.session := answer.session;
      var n := |server.middlewares| + |route.middlewares|;
      if answer.response.Err? {
        return Refused(StatusBadRequest, n, true, req.session);
      }
      out := Conclude(session, Deliver(answer.response.value, chosen), acceptEncoding, n);
    }

    /**
     * After the handler succeeded: the encoding loop, the save of the
     * session data the request holds (which the in-memory store refuses when
     * it is nil), and the write.
     */
    method Conclude(session: Session, content: seq<byte>, acceptEncoding: string, middlewaresRun: nat)
      returns (out: Outcome)
      requires session.req.responseHeaders.fields == map[]
      modifies StoreFootprint(session.store), session.req.responseHeaders, session`data
      ensures out ==
        if session.store.InMemory? && session.req.session.None? then Refused(Aborted, middlewaresRun, true, None)
        else Outcome(StatusOK, SuccessHeaders(acceptEncoding, session.token), content, middlewaresRun, true,
                     session.req.session)
      ensures session.data == session.req.session
      ensures session.store.InMemory? ==>
        session.store.mem.sessions == Stored(old(session.store.mem.sessions), session.token, out)
    {
      var req := session.req;
      var enc := EncodingLoop(req.responseHeaders, acceptEncoding);
      session.data := req.session;
      var panicked := session.Save();
      if panicked {
        return Refused(Aborted, middlewaresRun, true, None);
      }
      return Outcome(StatusOK, req.responseHeaders.fields, content, middlewaresRun, true, req.session);
    }
  }

  /**
   * ApplyRoute: a fresh route for the path and handlers, and the closure that
   * serves it, whose implements map has exactly the tokens registered now.
   */
  method ApplyRoute(s: Server, path: string, t: ResponseType, bodyZero: Value, codec: BodyCodec,
                    handlers: map<Verb, Handler>)
    returns (route: Route, endpoint: Endpoint)
    ensures fresh(route) && fresh(endpoint)
    ensures route.path == path && route.handlers == handlers && route.middlewares == []
    ensures route.websocket == None && route.eventStream == None
    ensures endpoint.server == s && endpoint.route == route && endpoint.handlers == handlers
    ensures endpoint.codec == codec && endpoint.bodyZero == bodyZero
    ensures endpoint.implements.Keys == s.registry.Keys
    ensures forall k :: k in s.registry ==> endpoint.implements[k] == Implements(t, s.registry[k])
  {
    route := new Route(path, handlers);
    var implements := ComputeImplements(s.registry, t);
    endpoint := new Endpoint(s, route, implements, handlers, codec, bodyZero);
  }
}

=== FILE: session.dfy ===
/**
 * session.go: the session stores (in memory, none at all, or one the
 * application supplies) and the Session that loads, saves and deletes a
 * request's session through its store.
 */
module Sessions {
  import opened Wrappers
  import opened Http
  import opened Capabilities
  import opened Request

  /** The cookie that carries the session token. */
  const TokenCookie: string := "session_token"

  /** A day, in seconds: the Max-Age of the session cookie. */
  const SessionMaxAge: int := 24 * 60 * 60

  /** Request.Cookie: the first cookie with that name, if any. */
  function CookieNamed(cookies: seq<Cookie>, name: string): (r: Option<Cookie>)
    ensures r.None? <==> forall i :: 0 <= i < |cookies| ==> cookies[i].name != name
    ensures r.Some? ==> exists i :: (0 <= i < |cookies| && cookies[i] == r.value && r.value.name == name
                                     && forall j :: 0 <= j < i ==> cookies[j].name != name)
  {
    if cookies == [] then None
    else if cookies[0].name == name then Some(cookies[0])
    else
      var r := CookieNamed(cookies[1..], name);
      assert forall i :: 1 <= i < |cookies| ==> cookies[i] == cookies[1..][i - 1];
      if r.Some? then
        var k :| 0 <= k < |cookies[1..]| && cookies[1..][k] == r.value && r.value.name == name
          && forall j :: 0 <= j < k ==> cookies[1..][j].name != name;
        assert cookies[k + 1] == r.value;
        r
      else r
  }

  /**
   * InMemorySessionStore.ParseToken: the session cookie's value when the
   * request has one, otherwise the base64 text of 12 random bytes.
   */
  function InMemoryToken(cookies: seq<Cookie>, random: seq<byte>): (token: string)
    requires |random| == 12
    ensures CookieNamed(cookies, TokenCookie).Some? ==> token == CookieNamed(cookies, TokenCookie).value.value
    ensures CookieNamed(cookies, TokenCookie).None? ==>
      |token| == 16 && forall i :: 0 <= i < |token| ==> IsBase64Char(token[i])
  {
    match CookieNamed(cookies, TokenCookie)
    case Some(c) => c.value
    case None => Base64Alphabet(random); Base64Encode(random)
  }

  /** A store that keeps sessions in a map in memory; `zero` is the zero value of its T. */
  class InMemorySessionStore {
    var sessions: map<string, Value>
    const zero: Value

    constructor (zero: Value)
      ensures sessions == map[] && this.zero == zero
    {
      sessions := map[];
      this.zero := zero;
    }

    /** `random` stands for the 12 bytes read from crypto/rand. */
    method ParseToken(cookies: seq<Cookie>, random: seq<byte>) returns (token: string)
      requires |random| == 12
      ensures token == InMemoryToken(cookies, random)
    {
      var c := CookieNamed(cookies, TokenCookie);
      if c.None? {
        token := Base64Encode(random);
      } else {
        token := c.value.value;
      }
    }

    /** The stored data, the zero value for an unknown token, and never an error. */
    method Get(token: string) returns (data: Value, err: Option<string>)
      ensures data == (if token in sessions then sessions[token] else zero)
      ensures err == None
    {
      data := if token in sessions then sessions[token] else zero;
      err := None;
    }

    /** Stores the data under the token; nil data fails the assertion to T and panics. */
    method Save(token: string, data: Option<Value>) returns (panicked: bool)
      modifies this`sessions
      ensures panicked <==> data.None?
      ensures sessions == if data.None? then old(sessions) else old(sessions)[token := data.value]
    {
      if data.None? {
        return true;
      }
      sessions := sessions[token := data.value];
      return false;
    }

    method Delete(token: string)
      modifies this`sessions
      ensures sessions == old(sessions) - {token}
    {
      sessions := sessions - {token};
    }
  }

  /**
   * The SessionStore a server is given. A store the application writes itself
   * is known by its ParseToken and Get; what its Save and Delete do is its own.
   */
  datatype SessionStore =
    | InMemory(mem: InMemorySessionStore)
    | Sessionless
    | Custom(parseToken: Header -> string, get: string -> Result<Option<Value>, string>)

  /** The objects a store's methods may change. */
  function StoreFootprint(store: SessionStore): set<object> {
    if store.InMemory? then {store.mem} else {}
  }

  /**
   * The token ParseToken gives for a request: its headers, with the cookies
   * already parsed from them.
   */
  function TokenFor(store: SessionStore, headers: Header, cookies: seq<Cookie>, random: seq<byte>): string
    requires |random| == 12
  {
    match store
    case InMemory(_) => InMemoryToken(cookies, random)
    case Sessionless => ""
    case Custom(parseToken, _) => parseToken(headers)
  }

  /** What Get gives for a token: the data (None for nil), or the store's error. */
  function StoreGet(store: SessionStore, token: string): (r: Result<Option<Value>, string>)
    reads StoreFootprint(store)
    ensures store.InMemory? ==> r.Ok? && r.value.Some?
    ensures store.Sessionless? ==> r == Ok(None)
  {
    match store
    case InMemory(mem) => Ok(Some(if token in mem.sessions then mem.sessions[token] else mem.zero))
    case Sessionless => Ok(None)
    case Custom(_, get) => get(token)
  }

  /** The set-cookie a saved session with a token sends. */
  function TokenCookieFor(token: string): Cookie {
    Cookie(TokenCookie, token, SessionMaxAge)
  }

  /** The set-cookie that deletes the session: an empty value that expires at once. */
  const Expired: Cookie := Cookie(TokenCookie, "", -1)

  /** A request's session: its token and its data (None for a nil pointer). */
  class Session {
    var token: string
    var data: Option<Value>
    const store: SessionStore
    const req: Request

    constructor (store: SessionStore, req: Request)
      ensures this.store == store && this.req == req && token == "" && data == None
    {
      this.store := store;
      this.req := req;
      token := "";
      data := None;
    }

    /** load: the token of the request, then its data; a store error leaves the data as it was. */
    method Load(random: seq<byte>) returns (err: Option<string>)
      requires |random| == 12
      modifies this`token, this`data
      ensures token == TokenFor(store, req.headers, req.cookies, random)
      ensures StoreGet(store, token).Err? ==> err == Some(StoreGet(store, token).error) && data == old(data)
      ensures StoreGet(store, token).Ok? ==> err == None && data == StoreGet(store, token).value
      ensures store.InMemory? ==> token == InMemoryToken(req.cookies, random)
      ensures store.Sessionless? ==> token == "" && data == None && err == None
    {
      token := TokenFor(store, req.headers, req.cookies, random);
      match store {
        case InMemory(mem) =>
          var d, e := mem.Get(token);
          data := Some(d);
          err := e;
        case Sessionless =>
          data := None;
          err := None;
        case Custom(_, get) =>
          var r := get(token);
          if r.Err? {
            return Some(r.error);
          }
          data := r.value;
          err := None;
      }
    }

    /**
     * save: hands the data to the store, then sets the session cookie when
     * there is a token. Its error is always nil; the in-memory store panics on
     * nil data, and then no cookie is set.
     */
    method Save() returns (panicked: bool)
      modifies StoreFootprint(store), req.responseHeaders
      ensures panicked <==> store.InMemory? && data.None?
      ensures store.InMemory? ==>
        store.mem.sessions == if data.None? then old(store.mem.sessions) else old(store.mem.sessions)[token := data.value]
      ensures req.responseHeaders.fields ==
        if !panicked && token != "" then SetField(old(req.responseHeaders.fields), "set-cookie", CookieString(TokenCookieFor(token)))
        else old(req.responseHeaders.fields)
    {
      panicked := false;
      if store.InMemory? {
        panicked := store.mem.Save(token, data);
        if panicked {
          return;
        }
      }
      if token != "" {
        req.SetCookie(TokenCookieFor(token));
      }
    }

    /** delete: drops the token from the store, expires the cookie and forgets the data. */
    method Delete()
      modifies this`data, StoreFootprint(store), req.responseHeaders
      ensures store.InMemory? ==> store.mem.sessions == old(store.mem.sessions) - {token}
      ensures req.responseHeaders.fields == SetField(old(req.responseHeaders.fields), "set-cookie", CookieString(Expired))
      ensures data == None
    {
      Forget(Expired);
      data := None;
    }

    /** Drops the token from an in-memory store and answers with the cookie `c`. */
    method Forget(c: Cookie)
      modifies StoreFootprint(store), req.responseHeaders
      ensures store.InMemory? ==> store.mem.sessions == old(store.mem.sessions) - {token}
      ensures req.responseHeaders.fields == SetField(old(req.responseHeaders.fields), "set-cookie", CookieString(c))
    {
      if store.InMemory? {
        store.mem.Delete(token);
      }
      req.SetCookie(c);
    }
  }

  /** Save then Get under the same token gives back what was saved, and other tokens keep theirs. */
  method SaveThenGet(store: InMemorySessionStore, token: string, data: Value, other: string)
    returns (got: Value)
    modifies store
    ensures got == data
    ensures other != token ==> (other in store.sessions <==> other in old(store.sessions))
    ensures other != token && other in store.sessions ==> store.sessions[other] == old(store.sessions)[other]
  {
    var panicked := store.Save(token, Some(data));
    var err;
    got, err := store.Get(token);
  }
}

=== FILE: verbs.dfy ===
/**
 * HTTP methods: the nine-way mapping between method text and the Verb
 * enumeration, and its inverse.
 */
module Verbs {
  import opened Wrappers
  import Http

  /** A Verb is a byte; 0 is what ParseVerb returns for text that names no method. */
  type Verb = v: int | 0 <= v < 256

  const GET: Verb := 1
  const POST: Verb := 2
  const PUT: Verb := 3
  const DELETE: Verb := 4
  const HEAD: Verb := 5
  const OPTIONS: Verb := 6
  const CONNECT: Verb := 7
  const TRACE: Verb := 8
  const PATCH: Verb := 9

  /** The constants are numbered from 1, so the zero Verb is never a method. */
  predicate IsVerb(v: Verb) {
    GET <= v <= PATCH
  }

  /** The method names, in the order of the constants: Names[v - 1] names v. */
  const Names: seq<string> := ["GET", "POST", "PUT", "DELETE", "HEAD", "OPTIONS", "CONNECT", "TRACE", "PATCH"]

  /** ParseVerb's two results: the verb, and the error that accompanies 0. */
  datatype Parsed = Parsed(verb: Verb, err: Option<string>)

  /**
   * ParseVerb: the verb whose name is the upper-cased input; any other text
   * gives 0 together with an error.
   */
  function ParseVerb(s: string): Parsed {
    Lookup(Http.ToUpper(s))
  }

  /** The switch of ParseVerb, on text that is already upper-cased. */
  function Lookup(u: string): Parsed {
    if u == "GET" then Parsed(GET, None)
    else if u == "POST" then Parsed(POST, None)
    else if u == "PUT" then Parsed(PUT, None)
    else if u == "DELETE" then Parsed(DELETE, None)
    else if u == "HEAD" then Parsed(HEAD, None)
    else if u == "OPTIONS" then Parsed(OPTIONS, None)
    else if u == "CONNECT" then Parsed(CONNECT, None)
    else if u == "TRACE" then Parsed(TRACE, None)
    else if u == "PATCH" then Parsed(PATCH, None)
    else Parsed(0, Some("Invalid Verb"))
  }

  /**
   * The switch succeeds exactly on the nine names, with the verb the name
   * stands for; anything else is 0 with an error.
   */
  lemma LookupMatchesNames(u: string)
    ensures var r := Lookup(u);
      && (r.err.None? <==> u in Names)
      && (r.err.None? ==> IsVerb(r.verb) && Names[r.verb - 1] == u)
      && (r.err.Some? ==> r.verb == 0)
  {
  }

  /** ParseVerb succeeds exactly when the upper-cased input is one of the names, and gives its verb. */
  lemma ParseVerbMatchesNames(s: string)
    ensures var r := ParseVerb(s);
      && (r.err.None? <==> Http.ToUpper(s) in Names)
      && (r.err.None? ==> IsVerb(r.verb) && Names[r.verb - 1] == Http.ToUpper(s))
      && (r.err.Some? ==> r.verb == 0)
  {
    LookupMatchesNames(Http.ToUpper(s));
  }

  /**
   * Verb.String: the method's name. The source panics outside 1..9, which
   * here is the precondition.
   */
  function VerbString(v: Verb): (name: string)
    requires IsVerb(v)
    ensures name == Names[v - 1]
  {
    if v == GET then "GET"
    else if v == POST then "POST"
    else if v == PUT then "PUT"
    else if v == DELETE then "DELETE"
    else if v == HEAD then "HEAD"
    else if v == OPTIONS then "OPTIONS"
    else if v == CONNECT then "CONNECT"
    else if v == TRACE then "TRACE"
    else "PATCH"
  }

  /** The method names hold no lower-case letters. */
  lemma NameIsUpper(v: Verb)
    requires IsVerb(v)
    ensures Http.ToUpper(VerbString(v)) == VerbString(v)
  {
    var name := VerbString(v);
    assert forall i :: 0 <= i < |name| ==> 'A' <= name[i] <= 'Z';
    Http.ToUpperFixed(name);
  }

  /** The switch maps each method name to its own verb. */
  lemma NameLooksUp(v: Verb)
    requires IsVerb(v)
    ensures Lookup(VerbString(v)) == Parsed(v, None)
  {
    var r := Lookup(VerbString(v));
    LookupMatchesNames(VerbString(v));
    assert r.err.None? && IsVerb(r.verb) && VerbString(r.verb) == VerbString(v);
  }

  /** Parsing a verb's name gives the verb back. */
  lemma NameRoundTrip(v: Verb)
    requires IsVerb(v)
    ensures ParseVerb(VerbString(v)) == Parsed(v, None)
  {
    NameIsUpper(v);
    NameLooksUp(v);
  }

  /** Naming a parsed verb gives the upper-cased input back. */
  lemma TextRoundTrip(s: string)
    requires ParseVerb(s).err.None?
    ensures VerbString(ParseVerb(s).verb) == Http.ToUpper(s)
  {
    ParseVerbMatchesNames(s);
  }

  /** Parsing ignores ASCII case: the input and its upper-cased form parse alike. */
  lemma ParseIgnoresCase(s: string)
    ensures ParseVerb(s) == ParseVerb(Http.ToUpper(s))
  {
    Http.ToUpperIdempotent(s);
  }

  /** A lower-case method name parses: "get" is GET. */
  lemma LowerCaseGet()
    ensures ParseVerb("get") == Parsed(GET, None)
  {
    assert Http.ToUpper("get") == "GET";
  }
}

=== FILE: wrappers.dfy ===
/** Failure-carrying values shared by every module of the model. */
module Wrappers {

  /** A value that may be absent; `None` plays the part of Go's nil. */
  datatype Option<+T> = None | Some(value: T)

  /** The outcome of an operation that returns a value or an error. */
  datatype Result<+R, +E> = Ok(value: R) | Err(error: E)
}
